=== FILE: README.md ===
# Student success predictor — a Dafny model of its rule-based core

The system predicts whether a student will drop out, stay enrolled or graduate.
A Python web service wraps a trained classifier. Two browser front-ends sit on
top of it: a teacher dashboard and a student survey wizard. This project models
the deterministic logic around the classifier and proves properties of it.

- **Backend tables** (`Tables`, `Features`): a pandas DataFrame is an ordered
  sequence of labelled columns of equal length. Labels may repeat.
  - Column renaming.
  - The six zero-guarded ratio features. Each is added only when both of its
    source columns exist. A zero denominator becomes a missing value.
  - The final scrub of every infinity in the table.
- **Prediction formatting** (`Formatter`):
  - the stable argmax, with ties going to the first index;
  - the confidence and the "Dropout" risk as percentages rounded to one decimal;
  - the per-class percentage map;
  - the batch path's appended `prediction`, `confidence`,
    `dropout_risk_score` and `prob_<class>` columns.
- **The two endpoints** (`Service`):
  - The model bundle is an `Option<Bundle>`: `None` answers 503.
  - A CSV parse failure answers 400.
  - The classifier is an arbitrary function from a table to a rectangular
    probability matrix.
  - The `target` column is withheld from the classifier but kept in the output.
- **Client-side ratios** (`ClientFeatures`): the web client computes the same
  first-semester ratios with a different zero policy. The module proves where it
  agrees with the backend and where it does not.
- **Teacher dashboard** (`Dashboard`):
  - risk buckets, badges and colours at thresholds 40 and 70;
  - summary counts, the average risk and the graduation rate;
  - the order-preserving, case-insensitive student search.
- **Survey wizard** (`Survey`):
  - navigation with a terminal "done" state;
  - answers keyed by question id;
  - the number stepper and typed entry, both as the page has them and with
    the "+" button corrected (see Findings);
  - per-section completion;
  - the option search.

Every operation is a pure function on immutable values. Like the source, which
copies each DataFrame before changing it, the model never alters its input.

Helper modules:
- `Wrappers`: `Option` and `Result`.
- `Seqs`: filter, count and order-preservation lemmas.
- `Text`: ASCII lower-casing and substring search.
- `Rounding`:
  - Python's round-half-even to one decimal, on exact reals;
  - JavaScript's `Math.round`.

## Model

| member | source | states |
|---|---|---|
| Tables.Get | backend/backend.py:21 | Reading a label gives its cells exactly when one column carries it. An absent label is a missing-column error. A repeated label is an ambiguous-column error. |
| Tables.HttpStatus | backend/backend.py:91-98 | A missing model answers 503 and only it does. A CSV parse failure answers 400 and only it does. Every other error is an uncaught 500. |
| Tables.Put | backend/backend.py:123-127 | Assigning a column succeeds iff the cell count equals the row count. The row count is kept and the label is present afterwards. |
| Tables.PutThenGet | backend/backend.py:123 | After assigning a non-repeated label, reading it gives back exactly the assigned cells. |
| Tables.PutLeavesOtherLabels | backend/backend.py:123-127 | Assigning one label leaves the presence and contents of every other label unchanged. |
| Tables.PutKeepsOthers | backend/backend.py:123-127 | An assignment overwrites columns with that label in place, or appends one column at the end. Columns with other labels keep their position and cells. |
| Tables.PutColumnIs | backend/backend.py:123-127 | After an assignment the label holds the new cells, and every other label holds what it held before. |
| Tables.Drop | backend/backend.py:105-106 | Dropping a label removes every column carrying it. Every other column stays, nothing new appears, and the row count is kept. |
| Tables.DropInOrder | backend/backend.py:106 | The kept columns are, in order, exactly the columns at the positions not carrying the label. |
| Tables.Rename | backend/backend.py:11-13 | Renaming replaces exactly the labels in the mapping. Other labels, every cell, the column order and the row count pass through. |
| Tables.RenameRoundTrip | backend/backend.py:11-13 | Renaming with a mapping and then with its inverse restores the original table. |
| Tables.RenameEmpty | backend/backend.py:101-102 | The default empty rename mapping leaves the table unchanged. |
| Features.Quotient | backend/backend.py:21 | One row of a ratio. A missing operand or a zero denominator gives missing, even opposite text, because pandas does not divide there. Text opposite two present operands is an error. Two numbers with a non-zero denominator give their quotient. Infinity can only come from an infinite numerator. |
| Features.AddRatio | backend/backend.py:20-21 | A guard that fails leaves the table as it is. A step succeeds iff its guard fails or its sources are usable. A successful step keeps the row count, and if its guard held the derived label is present. |
| Features.Apply | backend/backend.py:16-37 | No derivations leave the table unchanged. The row count is kept. A failing first step fails the whole fold with its error. |
| Features.Scrub | backend/backend.py:39 | Afterwards no cell anywhere is infinite: every infinite cell is missing. Shape, labels and every finite cell are unchanged. |
| Features.Engineer | backend/backend.py:16-40 | Successful feature engineering leaves no infinite cell in the whole table. |
| Features.EngineerSucceedsIff | backend/backend.py:20-37 | Engineering succeeds iff every derivation whose sources are both present can read them as single non-text columns. |
| Features.EngineerCreatesIff | backend/backend.py:20-37 | A derived column is present afterwards iff it was there already or both of its sources are. Otherwise nothing is added. |
| Features.EngineerRatioValues | backend/backend.py:21-37 | Each row of a derived column is the scrubbed quotient of its source cells. A zero denominator gives missing; two numbers with a non-zero denominator give numerator/denominator. |
| Features.EngineerPreservesTable | backend/backend.py:17-40 | The row count is kept, and every existing column keeps its position and label. Columns whose label no derivation writes keep their cells, except that infinity becomes missing. New columns are derived ones, appended at the end. |
| Rounding.RoundHalfEven | backend/backend.py:82-83 | The result lies within one half of the input, and exact ties go to the even neighbour. |
| Rounding.Round1 | backend/backend.py:82-84 | Rounding to one decimal moves a value by at most 0.05. |
| Rounding.Round1Exact | backend/backend.py:82 | A value that already has one decimal is unchanged by rounding. |
| Rounding.Round1Monotone | backend/backend.py:82-83 | Rounding to one decimal preserves order. |
| Formatter.ArgMax | backend/backend.py:72 | The index returned attains the maximum and no earlier index does. |
| Formatter.Max | backend/backend.py:117 | The row maximum is an element of the row and bounds every element. |
| Formatter.MaxAtArgMax | backend/backend.py:114-117 | The first maximal index is unique: it is the argmax, and the value there is the row maximum. |
| Formatter.IndexOf | backend/backend.py:77 | The lookup finds the first occurrence of the class, and fails exactly when the class is absent. |
| Formatter.PercentMapEntries | backend/backend.py:84 | The percentage map has exactly one key per class. A class listed once maps to its own probability as a rounded percentage. |
| Formatter.FormatSingle | backend/backend.py:71-85 | Succeeds iff the probabilities are non-empty, the argmax indexes a class, "Dropout" is a class and every class has a probability. An empty row and a missing "Dropout" give their own errors. The label is the class at the first maximal index, with that probability as confidence. The risk is the "Dropout" probability. The map sends each class to its rounded percentage. |
| Formatter.FormatSingleBounds | backend/backend.py:75-84 | For probabilities in [0, 1], confidence, risk and every map entry lie in [0, 100], and the risk never exceeds the confidence. |
| Formatter.PercentagesSumToHundred | backend/backend.py:84 | When the probabilities sum to 1, the rounded percentages sum to 100 within 0.05 per class. |
| Formatter.ProbColumnNameDiffers | backend/backend.py:123-127 | A `prob_` column can never overwrite the three summary columns. |
| Formatter.BatchRowsFormat | backend/backend.py:114-120 | For each row, the batch label, confidence and risk equal the single-record answer for the same probabilities. |
| Formatter.PutProbColumns | backend/backend.py:126-127 | The per-class loop succeeds iff every class has a probability column and there is one probability row per table row. It keeps the row count, and fails only with an out-of-range index or a length mismatch. |
| Formatter.FormatBatch | backend/backend.py:113-127 | An empty matrix fails on the argmax. A row whose winner has no class name is an index error, and a model without "Dropout" is a class-not-found error, in that order. A successful answer keeps the row count. |
| Formatter.FormatBatchOkIff | backend/backend.py:113-127 | The batch answer exists iff the matrix is non-empty, every row's winner has a class name, "Dropout" is a class, every class has a probability column and there is one probability row per table row. |
| Formatter.BatchSummaryColumns | backend/backend.py:122-125 | The output holds `prediction`, `confidence` and `dropout_risk_score` with the per-row argmax label, rounded maximum and rounded "Dropout" probability. |
| Formatter.ProbColumnsValues | backend/backend.py:126-127 | Each class gets a `prob_<lower-case class>` column. It holds that class's rounded percentages when no later class has the same lower-cased name. |
| Formatter.BatchAgreesWithSingle | backend/backend.py:113-125 | There is one probability row per table row and each formats on its own. The summary columns are, row by row, the single-record answers. |
| Formatter.BatchPreservesTable | backend/backend.py:122-127 | The output keeps the rows and every input column in place. Columns not written by the batch are unchanged. Appended columns carry batch labels, and every class has a probability column. |
| Service.FromRecord | backend/backend.py:65 | A JSON record, whose keys are distinct, becomes a one-row table. It has one column per key in key order, each holding that key's value, and reading a key gives its value. |
| Service.Predict | backend/backend.py:61-85 | With no model the answer is error 503. A successful prediction's label is one of the model's classes. |
| Service.ModelInput | backend/backend.py:105-108 | The classifier's input has no `target` column. It keeps every other column, has no column the table lacks, and keeps the row count. |
| Service.ModelInputInOrder | backend/backend.py:105-108 | The classifier's columns are, in order, exactly the table's columns at the positions not labelled `target`. |
| Service.PredictCsv | backend/backend.py:91-127 | With no model the answer is 503, checked before the upload. An unparsable upload is 400 with the parser's message. |
| Service.ModelInputIgnoresTarget | backend/backend.py:105-113 | Tables that differ only in their `target` cells give the classifier the same input and hence the same probabilities. |
| Service.TargetIsNoBatchLabel | backend/backend.py:122-127 | No appended output column is labelled `target`. |
| Service.PredictCsvPreservesUpload | backend/backend.py:101-127 | A batch answer has the upload's row count and its renamed columns in place. A column neither engineered nor appended, such as `target`, keeps its cells with infinities as missing. |
| Service.PredictCsvRowsAgree | backend/backend.py:113-123 | The batch `prediction` column equals, row by row, the label the single-record path gives for that row's probabilities. |
| Service.ZeroEnrolledGuards | backend/backend.py:20-37 | A record with only first-semester enrolled and approved units enables exactly the first-semester approval rate. |
| Service.ZeroEnrolledScenario | backend/backend.py:20-21 | Zero enrolled units give a missing approval rate, whatever the approved count holds, text included. This is not an error, not infinity and not zero. |
| Service.FormatScenario | backend/backend.py:71-85 | Probabilities 0.7/0.2/0.1 over Dropout/Enrolled/Graduate give Dropout, confidence 70.0, risk 70.0 and the map 70.0/20.0/10.0. |
| Service.NoRiskClassFails | backend/backend.py:77 | Without a "Dropout" class both the single-record path and the batch path (line 119) fail. |
| Service.PredictAgreesWithBatch | backend/backend.py:58-127 | A record without a `target` key gets the same label from the single-record path as from the batch path on the one-row table of the same record, for a model without renames. |
| ClientFeatures.Rate | edurisk-ai/src/services/predictionService.ts:10-12 | A positive denominator gives the quotient; any non-positive denominator gives 0. |
| ClientFeatures.Ratios | edurisk-ai/src/services/predictionService.ts:10-12 | Each of the three ratios times its positive denominator gives its numerator. A non-positive denominator gives 0. |
| ClientFeatures.RateAgainstQuotient | edurisk-ai/src/services/predictionService.ts:10-12 | Client and backend agree on a positive denominator. On zero the client gives 0 where the backend gives missing. On a negative denominator the client gives 0 where the backend divides. |
| ClientFeatures.ClientMatchesBackend | edurisk-ai/src/services/predictionService.ts:10-12 | Engineering the same four unit counts on the backend yields the three first-semester ratio columns, all present. Each equals the client's value when its denominator is positive. With zero enrolled units it is missing where the client shows 0. |
| Dashboard.ComputeStats | edurisk-ai/src/components/TeacherDashboard.tsx:24-45 | The total is the number of students. The average is undefined exactly for an empty list. The distribution has one entry per outcome. |
| Dashboard.BucketsPartition | edurisk-ai/src/components/TeacherDashboard.tsx:26-28 | Every student is in exactly one risk bucket. A student without a prediction is low risk. |
| Dashboard.StatsBucketsSum | edurisk-ai/src/components/TeacherDashboard.tsx:26-28 | The high, medium and low counts add up to the total. |
| Dashboard.StatsDistribution | edurisk-ai/src/components/TeacherDashboard.tsx:31-35 | The outcome counts sum to at most the total, with equality iff every student has a prediction. |
| Dashboard.AverageRiskBounds | edurisk-ai/src/components/TeacherDashboard.tsx:29-42 | For a non-empty class with risk scores in [0, 100], the rounded average is defined and lies in [0, 100]. |
| Dashboard.GraduationPercent | edurisk-ai/src/components/TeacherDashboard.tsx:83 | The graduation rate of a list of students is undefined exactly when the list is empty. |
| Dashboard.GraduationPercentBounds | edurisk-ai/src/components/TeacherDashboard.tsx:83 | For a non-empty class the graduation rate is defined and lies in [0, 100]. |
| Dashboard.Badge | edurisk-ai/src/components/TeacherDashboard.tsx:52-56 | High iff the score is at least 70, Medium iff it is from 40 to below 70, Low iff it is below 40. |
| Dashboard.BadgeMatchesBuckets | edurisk-ai/src/components/TeacherDashboard.tsx:52-56 | The High, Medium and Low badges hold exactly for the students counted high, medium and low. |
| Dashboard.RiskColour | edurisk-ai/src/components/RiskDashboard.tsx:11-15 | Emerald below 40, amber from 40 to below 70, rose from 70. |
| Dashboard.ColourMatchesBadge | edurisk-ai/src/components/RiskDashboard.tsx:11-15 | Emerald iff a Low badge, amber iff Medium, rose iff High. |
| Dashboard.OutcomeIcon | edurisk-ai/src/components/RiskDashboard.tsx:17-23 | Each outcome has an icon, and different outcomes get different icons. |
| Dashboard.FilteredStudents | edurisk-ai/src/components/TeacherDashboard.tsx:47-50 | Keeps exactly the students whose lower-cased name or id contains the lower-cased term. |
| Dashboard.FilteredStudentsInOrder | edurisk-ai/src/components/TeacherDashboard.tsx:47-50 | The kept students appear at strictly increasing original positions. A position is kept iff its student matches. |
| Dashboard.EmptySearchKeepsAll | edurisk-ai/src/components/TeacherDashboard.tsx:47-50 | An empty search term returns every student, in order. |
| Text.ContainsIgnoreCaseProperties | edurisk-ai/src/components/TeacherDashboard.tsx:48-49 | An exact substring also matches ignoring case, and lower-casing the searched text first changes nothing. |
| Rounding.JsRound | edurisk-ai/src/components/TeacherDashboard.tsx:42 | `Math.round` moves a value by at most one half, and exact halves round up. |
| Rounding.JsRoundBounds | edurisk-ai/src/components/TeacherDashboard.tsx:42 | Rounding a value between two integers stays between them. |
| Survey.AnswerTests | predictEd/src/pages/survey.jsx:621 | The Continue test implies the completion test, and the two differ only on `null`. A "No" toggle passes both. Undefined and `""` pass neither. |
| Survey.GoNext | predictEd/src/pages/survey.jsx:763-770 | On the last question the survey becomes done with the index unchanged. Otherwise the index advances by one. It stays in range. |
| Survey.GoPrev | predictEd/src/pages/survey.jsx:772-777 | At the first question nothing changes. Otherwise the index goes back by one. |
| Survey.SetAnswer | predictEd/src/pages/survey.jsx:779-781 | Only the current question's entry changes: it now holds the value. All other answers and the position are unchanged. |
| Survey.Decrement | predictEd/src/pages/survey.jsx:537 | "−" never goes below the minimum. It steps an entered number down by one, an unset field steps to the minimum, and a cleared field (`"" - 1` is -1) steps to the larger of -1 and the minimum. |
| Survey.IncrementAsWritten | predictEd/src/pages/survey.jsx:565 | "+" steps an entered number up by one and an unset field to one above the minimum, both capped at the maximum. A cleared field steps to 1 whatever the minimum. |
| Survey.IncrementAfterClearing | predictEd/src/pages/survey.jsx:565 | For the age question (16–70), "+" after clearing the field stores 1, below the minimum. |
| Survey.ClearThenPlusLeavesRange | predictEd/src/pages/survey.jsx:549-565 | On the real survey, clearing the age field and pressing "+" stores age 1, outside its range 16–70. The corrected stepper stores 17. |
| Survey.Increment | predictEd/src/pages/survey.jsx:565 | "+" steps an entered number up by one, and stays at the maximum once there. An unset or cleared field steps to one above the minimum, capped at the maximum. Apart from the cleared field it behaves as written. |
| Survey.Typed | predictEd/src/pages/survey.jsx:549-553 | A parsed integer in range is stored as it is. One at or above the maximum is stored as the maximum, and one below a non-empty range as the minimum. Unparsable input clears the field. |
| Survey.StepperKeepsRange | predictEd/src/pages/survey.jsx:537-565 | From a field within the stepper's bounds, "+", "−" and typing leave a value within them: for the corrected stepper the question's range, for the page's stepper that range widened down to 1. |
| Survey.Step | predictEd/src/pages/survey.jsx:531-694 | Every event keeps the position on a real question, and once done no event changes anything. Continue never changes the answers and changes the wizard iff the current answer has a value; it then advances by one, or finishes on the last question. Back only moves back by one, stopping at the first question. Every other event keeps the position, never finishes the survey and changes only the current question's answer. A plain answer on a non-number question stores that value; on a number question it is ignored. Stepper events store a value on number questions and do nothing elsewhere. |
| Survey.Run | predictEd/src/pages/survey.jsx:754-781 | Any event sequence keeps the position on a real question, and a finished survey stays as it is. |
| Survey.StepKeepsNumbersWithin | predictEd/src/pages/survey.jsx:531-575 | No event stores a number answer outside the stepper's bounds: the declared range for the corrected stepper. |
| Survey.RunKeepsNumbersWithin | predictEd/src/pages/survey.jsx:531-575 | Over any event sequence, number answers stay within the stepper's bounds. With the corrected stepper they stay in their questions' ranges. |
| Survey.CompletedSections | predictEd/src/pages/survey.jsx:794-797 | A section is listed iff all its questions are answered, neither undefined nor `""`. |
| Survey.DoneCountBounds | predictEd/src/pages/survey.jsx:724-725 | A section's done count is at most its size, and equals it iff the section is complete. |
| Survey.SetAnswerKeepsCompletion | predictEd/src/pages/survey.jsx:794-797 | Answering with anything but `""` never un-completes a section. |
| Survey.FilterOptions | predictEd/src/pages/survey.jsx:580-582 | Keeps exactly the options whose lower-cased text contains the lower-cased search. |
| Survey.FilterOptionsOrder | predictEd/src/pages/survey.jsx:580-582 | Kept options keep their original order, and an empty search lists every option. |
| Survey.QuestionsRanges | predictEd/src/pages/survey.jsx:13-428 | The survey has 33 questions and the first is the age question. Every number question has a range with 0 ≤ min ≤ max. |

## Left out

- HTTP routing, request and response bodies, file upload, `StreamingResponse`,
  the static mount and the HTML root. Only the 503 and 400 outcomes are
  modelled, as error variants.
- Loading the model with `joblib` and the global singleton. The bundle is given
  as an `Option<Bundle>`.
- The classifier itself. `pipeline` is an arbitrary function to a rectangular
  matrix. Nothing about it is assumed, not even that probabilities lie in
  [0, 1]; the bound lemmas take that as a premise.
- The classifier's own exceptions: `pipeline` is total, so an upload with no
  rows, or one missing a feature column the classifier needs, gets a formatted
  answer where the service would fail with a 500.
- Tables.Put: pandas grows a table with no rows to the length of a non-empty
  column assigned to it. The model reports a length mismatch instead. Only a
  header-only upload reaches that case, and it already fails in the classifier.
- Parsing and writing CSV. The upload arrives as an already parsed table, or as
  the parser's message.
- IEEE floating point. Cells are exact reals, so NaN, `-0.0`, overflow to
  infinity and binary rounding error are not modelled. Infinity still exists
  as a cell value, so that the scrub is modelled.
- Features.EngineerPreservesTable: does not state the cells of an existing
  column that already carries a derived label but whose sources are absent.
  Such a column passes through like any other, apart from the infinity scrub.
  The per-cell clause covers only labels no derivation writes.
- Unicode case mapping. Lower-casing covers ASCII letters only.
- Service.Predict: `rename_dict` is not applied on the single-record path,
  because the source does not apply it there either. JSON booleans and nested
  values in a record are not modelled; cells are numbers, text or missing.
- ClientFeatures: only the three ratio computations of the client. The Gemini
  call, the prompt and `JSON.parse` are foreign calls.
- The survey's auto-advance timer and keyboard listeners. Enter and the left
  arrow are modelled as the Continue and Back events they trigger.
- Survey.Step: the UI decides which events a question accepts. Plain answers
  come from cards, toggles and option lists; the stepper exists only on number
  questions.
- `parseInt`'s grammar. Typed entry receives the parse result.
- Survey.QuestionsRanges: does not state that the 33 shipped question ids are
  pairwise distinct. `RunKeepsNumbersWithin` assumes this of the question list it is
  given. Checking it needs 528 literal comparisons, beyond the proof budget.
- Rendering, styling and routing components: the navigation bars, the app
  shells, the home page and the student form.

## Findings

| source | as written | input that shows it | evidently intended | confidence | as-written member | corrected member |
|---|---|---|---|---|---|---|
| predictEd/src/pages/survey.jsx:565 | The "+" button computes `min(max, (value ?? min) + 1)`. After the input is cleared the value is `""`, which `??` does not replace, and `"" + 1` is the string `"1"`. The stored answer becomes 1. | Age question (range 16–70): type a value, clear the field, press "+". The stored age is 1. | Treat a cleared field like an unset one and step to `min(max, min + 1)`, keeping the answer in range as "−" and typed entry do. | not executed | Survey.IncrementAsWritten, Survey.ClearThenPlusLeavesRange | Survey.Increment, Survey.RunKeepsNumbersWithin |

=== FILE: client_features.dfy ===
/** The web client's own first-semester ratios, computed before it asks the
    language model for a prediction, and how they compare with the
    backend's feature engineering on the same numbers. */
module ClientFeatures {
  import opened Wrappers
  import opened Tables
  import Features
  import Service

  /** The academic fields of the client's student record that the ratios
      read. */
  datatype Sem1Units = Sem1Units(enrolled: real, approved: real, evaluated: real, withoutEvaluations: real)

  datatype ClientRatios = ClientRatios(approvalRate: real, successRatio: real, noEvaluationRate: real)

  /** `den > 0 ? num / den : 0`: every non-positive denominator gives 0. */
  function Rate(num: real, den: real): (r: real)
    ensures den > 0.0 ==> r * den == num
    ensures den <= 0.0 ==> r == 0.0
  {
    if den > 0.0 then num / den else 0.0
  }

  /** The three ratios the client stores beside the record. */
  function Ratios(u: Sem1Units): (c: ClientRatios)
    ensures u.enrolled > 0.0 ==>
              c.approvalRate * u.enrolled == u.approved && c.noEvaluationRate * u.enrolled == u.withoutEvaluations
    ensures u.evaluated > 0.0 ==> c.successRatio * u.evaluated == u.approved
    ensures u.enrolled <= 0.0 ==> c.approvalRate == 0.0 && c.noEvaluationRate == 0.0
    ensures u.evaluated <= 0.0 ==> c.successRatio == 0.0
  {
    ClientRatios(
      Rate(u.approved, u.enrolled),
      Rate(u.approved, u.evaluated),
      Rate(u.withoutEvaluations, u.enrolled))
  }

  /** One ratio, client against backend: they agree on a positive
      denominator; on zero the client gives 0 where the backend gives a
      missing value; on a negative denominator the client gives 0 where the
      backend divides. */
  lemma RateAgainstQuotient(num: real, den: real)
    ensures den > 0.0 ==> Features.Quotient(Num(num), Num(den)) == Some(Num(Rate(num, den)))
    ensures den == 0.0 ==> Features.Quotient(Num(num), Num(den)) == Some(Missing) && Rate(num, den) == 0.0
    ensures den < 0.0 ==> Features.Quotient(Num(num), Num(den)) == Some(Num(num / den)) && Rate(num, den) == 0.0
  {
  }

  /** The same units as a backend record, under the backend's labels. */
  function BackendRecord(u: Sem1Units): (r: seq<(string, Value)>)
    ensures Service.DistinctKeys(r)
  {
    [("sem1_enrolled", Num(u.enrolled)), ("sem1_approved", Num(u.approved)),
     ("sem1_evaluations", Num(u.evaluated)), ("sem1_without_eval", Num(u.withoutEvaluations))]
  }

  /** What the backend's engineered table holds where the client computes
      `rate = num / den`. */
  function BackendCell(num: real, den: real): Value
  {
    if den == 0.0 then Missing else Num(num / den)
  }

  lemma BackendRecordFacts(u: Sem1Units)
    ensures var t := Service.FromRecord(BackendRecord(u));
      && Get(t, "sem1_enrolled") == Ok([Num(u.enrolled)])
      && Get(t, "sem1_approved") == Ok([Num(u.approved)])
      && Get(t, "sem1_evaluations") == Ok([Num(u.evaluated)])
      && Get(t, "sem1_without_eval") == Ok([Num(u.withoutEvaluations)])
      && (forall d :: d in Features.Derivations ==>
            (Features.Guard(t, d) <==> d in Features.Derivations[..3]))
      && (forall d :: d in Features.Derivations[..3] ==> Features.Usable(t, d))
  {
    var t := Service.FromRecord(BackendRecord(u));
    assert t.columns[0].name == "sem1_enrolled";
    assert t.columns[1].name == "sem1_approved";
    assert t.columns[2].name == "sem1_evaluations";
    assert t.columns[3].name == "sem1_without_eval";
  }

  /** On a one-row table whose sources hold the numbers `num` and `den`,
      the engineered column holds `BackendCell(num, den)`. */
  lemma EngineeredCell(t: Frame, d: Features.Derivation, num: real, den: real)
    requires d in Features.Derivations && Features.Guard(t, d)
    requires Get(t, d.numerator) == Ok([Num(num)]) && Get(t, d.denominator) == Ok([Num(den)])
    requires Features.Engineer(t).Ok?
    ensures var r := Features.Engineer(t).value;
      forall i :: 0 <= i < |r.columns| && r.columns[i].name == d.output ==>
        r.columns[i].cells == [BackendCell(num, den)]
  {
    var r := Features.Engineer(t).value;
    forall i | 0 <= i < |r.columns| && r.columns[i].name == d.output
      ensures r.columns[i].cells == [BackendCell(num, den)]
    {
      Features.EngineerRatioValues(t, d, i, 0);
      assert |r.columns[i].cells| == 1;
    }
  }

  lemma BackendRatio(u: Sem1Units, j: nat, num: real, den: real)
    requires j < 3
    requires Get(Service.FromRecord(BackendRecord(u)), Features.Derivations[j].numerator) == Ok([Num(num)])
    requires Get(Service.FromRecord(BackendRecord(u)), Features.Derivations[j].denominator) == Ok([Num(den)])
    requires Features.Engineer(Service.FromRecord(BackendRecord(u))).Ok?
    ensures var r := Features.Engineer(Service.FromRecord(BackendRecord(u))).value;
      && Has(r, Features.Derivations[j].output)
      && forall i :: 0 <= i < |r.columns| && r.columns[i].name == Features.Derivations[j].output ==>
           r.columns[i].cells == [BackendCell(num, den)]
  {
    var t := Service.FromRecord(BackendRecord(u));
    var d := Features.Derivations[j];
    assert d in Features.Derivations[..3];
    BackendRecordFacts(u);
    Features.EngineerCreatesIff(t, d);
    EngineeredCell(t, d, num, den);
  }

  /** On a complete first-semester record the backend derives exactly the
      three first-semester ratios, and each agrees with the client's value
      whenever the client's denominator is positive; on a zero denominator
      the backend's cell is missing while the client shows 0. */
  lemma ClientMatchesBackend(u: Sem1Units)
    ensures Features.Engineer(Service.FromRecord(BackendRecord(u))).Ok?
    ensures var r := Features.Engineer(Service.FromRecord(BackendRecord(u))).value;
      var c := Ratios(u);
      && Has(r, "sem1_approval_rate") && Has(r, "sem1_success_ratio") && Has(r, "sem1_noeval_rate")
      && (forall i :: 0 <= i < |r.columns| && r.columns[i].name == "sem1_approval_rate" ==>
            r.columns[i].cells == [BackendCell(u.approved, u.enrolled)])
      && (forall i :: 0 <= i < |r.columns| && r.columns[i].name == "sem1_success_ratio" ==>
            r.columns[i].cells == [BackendCell(u.approved, u.evaluated)])
      && (forall i :: 0 <= i < |r.columns| && r.columns[i].name == "sem1_noeval_rate" ==>
            r.columns[i].cells == [BackendCell(u.withoutEvaluations, u.enrolled)])
      && (u.enrolled > 0.0 ==>
            (BackendCell(u.approved, u.enrolled) == Num(c.approvalRate) &&
             BackendCell(u.withoutEvaluations, u.enrolled) == Num(c.noEvaluationRate)))
      && (u.evaluated > 0.0 ==> BackendCell(u.approved, u.evaluated) == Num(c.successRatio))
      && (u.enrolled == 0.0 ==> BackendCell(u.approved, u.enrolled) == Missing && c.approvalRate == 0.0)
  {
    var t := Service.FromRecord(BackendRecord(u));
    BackendRecordFacts(u);
    Features.EngineerSucceedsIff(t);
    BackendRatio(u, 0, u.approved, u.enrolled);
    BackendRatio(u, 1, u.approved, u.evaluated);
    BackendRatio(u, 2, u.withoutEvaluations, u.enrolled);
  }
}

=== FILE: dashboard.dfy ===
/** The teacher dashboard's summary figures, search box and risk badges, and
    the single-result view's colour and icon choices. */
module Dashboard {
  import opened Wrappers
  import Seqs
  import Text
  import Rounding

  datatype Outcome = Dropout | Enrolled | Graduate

  /** The part of a prediction result the dashboard reads. */
  datatype PredictionResult = PredictionResult(outcome: Outcome, riskScore: real)

  datatype StudentProfile = StudentProfile(id: string, name: string, prediction: Option<PredictionResult>)

  /** `s.prediction?.riskScore ?? 0`. */
  function RiskOf(s: StudentProfile): real
  {
    if s.prediction.Some? then s.prediction.value.riskScore else 0.0
  }

  predicate IsHigh(s: StudentProfile) { RiskOf(s) >= 70.0 }
  predicate IsMedium(s: StudentProfile) { RiskOf(s) >= 40.0 && RiskOf(s) < 70.0 }
  predicate IsLow(s: StudentProfile) { RiskOf(s) < 40.0 }

  /** `s.prediction?.outcome === o`: false without a prediction. */
  predicate HasOutcome(s: StudentProfile, o: Outcome)
  {
    s.prediction.Some? && s.prediction.value.outcome == o
  }

  /** The dashboard's summary. An average or a percentage over an empty
      class is `None`: the source divides by zero there and shows `NaN`. */
  datatype Stats = Stats(
    total: nat,
    high: nat,
    medium: nat,
    low: nat,
    averageRisk: Option<int>,
    distribution: map<Outcome, nat>)

  /** The `reduce` of risk scores, left to right. */
  function TotalRisk(students: seq<StudentProfile>): real
  {
    if |students| == 0 then 0.0
    else TotalRisk(students[..|students| - 1]) + RiskOf(students[|students| - 1])
  }

  /** The `stats` memo. */
  function ComputeStats(students: seq<StudentProfile>): (r: Stats)
    ensures r.total == |students|
    ensures r.averageRisk.None? <==> |students| == 0
    ensures r.distribution.Keys == {Dropout, Enrolled, Graduate}
  {
    var total := |students|;
    Stats(
      total,
      Seqs.Count(students, IsHigh),
      Seqs.Count(students, IsMedium),
      Seqs.Count(students, IsLow),
      if total == 0 then None else Some(Rounding.JsRound(TotalRisk(students) / total as real)),
      map[Dropout := Seqs.Count(students, s => HasOutcome(s, Dropout)),
          Enrolled := Seqs.Count(students, s => HasOutcome(s, Enrolled)),
          Graduate := Seqs.Count(students, s => HasOutcome(s, Graduate))])
  }

  /** Every student lies in exactly one risk bucket; one without a
      prediction counts as risk 0 and so as low risk. */
  lemma BucketsPartition(s: StudentProfile)
    ensures (IsHigh(s) && !IsMedium(s) && !IsLow(s)) ||
            (!IsHigh(s) && IsMedium(s) && !IsLow(s)) ||
            (!IsHigh(s) && !IsMedium(s) && IsLow(s))
    ensures s.prediction.None? ==> IsLow(s) && !IsHigh(s) && !IsMedium(s)
  {
  }

  /** The three bucket counts add up to the number of students. */
  lemma StatsBucketsSum(students: seq<StudentProfile>)
    ensures var r := ComputeStats(students); r.high + r.medium + r.low == r.total
  {
    forall s | s in students
      ensures (IsHigh(s) && !IsMedium(s) && !IsLow(s)) ||
              (!IsHigh(s) && IsMedium(s) && !IsLow(s)) ||
              (!IsHigh(s) && !IsMedium(s) && IsLow(s))
    {
      BucketsPartition(s);
    }
    Seqs.CountPartition3(students, IsHigh, IsMedium, IsLow);
  }

  /** The outcome distribution never exceeds the number of students, and
      reaches it exactly when every student has a prediction. */
  lemma StatsDistribution(students: seq<StudentProfile>)
    ensures var d := ComputeStats(students).distribution;
      d[Dropout] + d[Enrolled] + d[Graduate] <= |students|
    ensures var d := ComputeStats(students).distribution;
      d[Dropout] + d[Enrolled] + d[Graduate] == |students| <==>
        forall s :: s in students ==> s.prediction.Some?
  {
    var p := (s: StudentProfile) => HasOutcome(s, Dropout);
    var q := (s: StudentProfile) => HasOutcome(s, Enrolled);
    var o := (s: StudentProfile) => HasOutcome(s, Graduate);
    Seqs.CountDisjoint3(students, p, q, o);
    assert forall s :: s in students ==> (p(s) || q(s) || o(s) <==> s.prediction.Some?);
  }

  lemma {:induction false} TotalRiskBounds(students: seq<StudentProfile>)
    requires forall s :: s in students ==> 0.0 <= RiskOf(s) <= 100.0
    ensures 0.0 <= TotalRisk(students) <= 100.0 * |students| as real
  {
    if |students| > 0 {
      var front := students[..|students| - 1];
      assert forall s :: s in front ==> s in students;
      TotalRiskBounds(front);
    }
  }

  /** With every risk score a percentage, the rounded average is one too. */
  lemma AverageRiskBounds(students: seq<StudentProfile>)
    requires |students| > 0
    requires forall s :: s in students ==> 0.0 <= RiskOf(s) <= 100.0
    ensures var a := ComputeStats(students).averageRisk; a.Some? && 0 <= a.value <= 100
  {
    TotalRiskBounds(students);
    var n := |students| as real;
    var avg := TotalRisk(students) / n;
    assert 0.0 <= avg <= 100.0 by {
      assert TotalRisk(students) <= 100.0 * n;
    }
    Rounding.JsRoundBounds(avg, 0, 100);
  }

  /** The "Graduation Rate" card: graduates as a rounded percentage of all
      students. */
  function GraduationPercent(students: seq<StudentProfile>): (p: Option<int>)
    ensures p.None? <==> |students| == 0
  {
    var r := ComputeStats(students);
    if r.total == 0 then None
    else Some(Rounding.JsRound(r.distribution[Graduate] as real / r.total as real * 100.0))
  }

  lemma GraduationPercentBounds(students: seq<StudentProfile>)
    requires |students| > 0
    ensures var p := GraduationPercent(students); p.Some? && 0 <= p.value <= 100
  {
    StatsDistribution(students);
    var r := ComputeStats(students);
    PercentOfBounds(r.distribution[Graduate], r.total);
  }

  lemma PercentOfBounds(part: nat, whole: nat)
    requires 0 < whole && part <= whole
    ensures 0 <= Rounding.JsRound(part as real / whole as real * 100.0) <= 100
  {
    var q := part as real / whole as real;
    assert 0.0 <= q <= 1.0 by {
      assert q * whole as real == part as real;
    }
    Rounding.JsRoundBounds(q * 100.0, 0, 100);
  }

  // ---------------------------------------------------------------------
  // Badges, colours and icons

  datatype RiskBand = Low | Medium | High

  /** `getRiskBadge`: the bands are checked from the top down. */
  function Badge(score: real): (b: RiskBand)
    ensures b == High <==> score >= 70.0
    ensures b == Medium <==> 40.0 <= score < 70.0
    ensures b == Low <==> score < 40.0
  {
    if score >= 70.0 then High
    else if score >= 40.0 then Medium
    else Low
  }

  datatype Colour = Emerald | Amber | Rose

  /** `getRiskColor`: the bands are checked from the bottom up. */
  function RiskColour(score: real): (c: Colour)
    ensures score < 40.0 ==> c == Emerald
    ensures 40.0 <= score < 70.0 ==> c == Amber
    ensures score >= 70.0 ==> c == Rose
  {
    if score < 40.0 then Emerald
    else if score < 70.0 then Amber
    else Rose
  }

  /** The badge agrees with the bucket the statistics count the student in. */
  lemma BadgeMatchesBuckets(s: StudentProfile)
    ensures Badge(RiskOf(s)) == High <==> IsHigh(s)
    ensures Badge(RiskOf(s)) == Medium <==> IsMedium(s)
    ensures Badge(RiskOf(s)) == Low <==> IsLow(s)
  {
  }

  /** The colour scale and the badges draw the same two boundaries:
      emerald is exactly Low, amber exactly Medium, rose exactly High. */
  lemma ColourMatchesBadge(score: real)
    ensures RiskColour(score) == Emerald <==> Badge(score) == Low
    ensures RiskColour(score) == Amber <==> Badge(score) == Medium
    ensures RiskColour(score) == Rose <==> Badge(score) == High
  {
  }

  datatype Icon = CheckCircle | AlertCircle | Info

  /** `getOutcomeIcon`, with the icon's tint. */
  function OutcomeIcon(o: Outcome): (r: (Icon, string))
    ensures o == Graduate <==> r.0 == CheckCircle
    ensures o == Dropout <==> r.0 == AlertCircle
    ensures o == Enrolled <==> r.0 == Info
  {
    match o
    case Graduate => (CheckCircle, "text-emerald-500")
    case Dropout => (AlertCircle, "text-rose-500")
    case Enrolled => (Info, "text-blue-500")
  }

  // ---------------------------------------------------------------------
  // Search

  /** The search box's test: the lower-cased name or id contains the
      lower-cased term. */
  predicate Matches(s: StudentProfile, term: string)
  {
    Text.ContainsIgnoreCase(s.name, term) || Text.ContainsIgnoreCase(s.id, term)
  }

  /** `filteredStudents`. */
  function FilteredStudents(students: seq<StudentProfile>, term: string): (r: seq<StudentProfile>)
    ensures forall s :: s in r ==> s in students && Matches(s, term)
    ensures forall s :: s in students && Matches(s, term) ==> s in r
  {
    Seqs.Filter(students, s => Matches(s, term))
  }

  /** The search keeps matching students in their original order: the
      result picks them at strictly increasing positions, and a position is
      picked exactly when its student matches. */
  lemma FilteredStudentsInOrder(students: seq<StudentProfile>, term: string)
    ensures var r := FilteredStudents(students, term);
      var idx := Seqs.KeptIndices(students, s => Matches(s, term));
      && |idx| == |r|
      && Seqs.StrictlyIncreasing(idx)
      && (forall k :: 0 <= k < |idx| ==> idx[k] < |students| && r[k] == students[idx[k]])
      && (forall i :: 0 <= i < |students| ==> (Matches(students[i], term) <==> i in idx))
  {
    Seqs.FilterSelectsInOrder(students, s => Matches(s, term));
  }

  /** An empty search shows every student. */
  lemma EmptySearchKeepsAll(students: seq<StudentProfile>)
    ensures FilteredStudents(students, "") == students
  {
    forall s | s in students ensures Matches(s, "") {
      Text.EmptyTermMatches(s.name);
    }
    Seqs.FilterAll(students, s => Matches(s, ""));
  }
}

=== FILE: features.dfy ===
/** The backend's feature engineering: six ratio columns, each derived only
    when both of its source columns are present, with a zero denominator
    read as missing and every infinity in the table scrubbed afterwards. */
module Features {
  import opened Wrappers
  import opened Tables

  /** `output = numerator / denominator`, computed when both sources exist. */
  datatype Derivation = Derivation(output: string, numerator: string, denominator: string)

  /** The six derived columns, in the order the backend adds them. */
  const Derivations: seq<Derivation> := [
    Derivation("sem1_approval_rate", "sem1_approved", "sem1_enrolled"),
    Derivation("sem1_success_ratio", "sem1_approved", "sem1_evaluations"),
    Derivation("sem1_noeval_rate", "sem1_without_eval", "sem1_enrolled"),
    Derivation("sem2_approval_rate", "sem2_approved", "sem2_enrolled"),
    Derivation("sem2_success_ratio", "sem2_approved", "sem2_evaluations"),
    Derivation("sem2_noeval_rate", "sem2_without_eval", "sem2_enrolled")
  ]

  /** One row of `numerator / denominator.replace({0: nan})`. On a column
      holding text pandas divides only the rows where both operands are
      present, so a missing operand or a zero denominator yields a missing
      cell even opposite text; `None` is the TypeError raised when text
      meets two present operands. */
  function Quotient(n: Value, d: Value): (r: Option<Value>)
    ensures r.None? <==> (n.Str? || d.Str?) && !n.Missing? && !d.Missing? && d != Num(0.0)
    ensures d == Num(0.0) ==> r == Some(Missing)
    ensures n.Missing? || d.Missing? ==> r == Some(Missing)
    ensures n.Num? && d.Num? && d.x != 0.0 ==> r == Some(Num(n.x / d.x))
    ensures r.Some? && r.value.Inf? ==> n.Inf?
  {
    var d' := if d == Num(0.0) then Missing else d;
    if n.Missing? || d'.Missing? then Some(Missing)
    else if n.Str? || d'.Str? then None
    else
      match (n, d')
      case (Num(a), Num(b)) => Some(Num(a / b))
      case (Num(_), Inf(_)) => Some(Num(0.0))
      case (Inf(neg), Num(b)) => Some(Inf(neg != (b < 0.0)))
      case (Inf(_), Inf(_)) => Some(Missing)
  }

  /** Row-wise quotient of two equally long columns, failing on text. */
  function Ratio(num: seq<Value>, den: seq<Value>, name: string): Result<seq<Value>, Error>
    requires |num| == |den|
  {
    if exists k :: 0 <= k < |num| && Quotient(num[k], den[k]).None? then Err(NonNumeric(name))
    else Ok(seq(|num|, k requires 0 <= k < |num| => Quotient(num[k], den[k]).value))
  }

  /** The `issubset(df.columns)` test guarding a derivation. */
  predicate Guard(t: Frame, d: Derivation)
  {
    Has(t, d.numerator) && Has(t, d.denominator)
  }

  /** Both sources read as single columns and hold no text. */
  ghost predicate Usable(t: Frame, d: Derivation)
  {
    && Get(t, d.numerator).Ok?
    && Get(t, d.denominator).Ok?
    && forall k :: 0 <= k < t.height ==>
         Quotient(Get(t, d.numerator).value[k], Get(t, d.denominator).value[k]).Some?
  }

  /** The column a usable derivation produces, before the infinity scrub. */
  ghost function Derived(t: Frame, d: Derivation): (r: seq<Value>)
    requires Usable(t, d)
    ensures |r| == t.height
  {
    seq(t.height, k requires 0 <= k < t.height =>
      Quotient(Get(t, d.numerator).value[k], Get(t, d.denominator).value[k]).value)
  }

  /** One `if {...}.issubset(df.columns): df[out] = num / den.replace(...)`. */
  function AddRatio(t: Frame, d: Derivation): (r: Result<Frame, Error>)
    ensures !Guard(t, d) ==> r == Ok(t)
    ensures r.Ok? <==> (Guard(t, d) ==> Usable(t, d))
    ensures r.Ok? ==> r.value.height == t.height
    ensures r.Ok? && Guard(t, d) ==> Has(r.value, d.output)
  {
    if !Guard(t, d) then Ok(t)
    else
      var num :- Get(t, d.numerator);
      var den :- Get(t, d.denominator);
      var cells :- Ratio(num, den, d.output);
      Put(t, d.output, cells)
  }

  /** The derivations applied one after another. */
  function Apply(t: Frame, ds: seq<Derivation>): (r: Result<Frame, Error>)
    ensures |ds| == 0 ==> r == Ok(t)
    ensures r.Ok? ==> r.value.height == t.height
    ensures |ds| > 0 && AddRatio(t, ds[0]).Err? ==> r == Err(AddRatio(t, ds[0]).error)
    decreases |ds|
  {
    if |ds| == 0 then Ok(t)
    else
      var t' :- AddRatio(t, ds[0]);
      Apply(t', ds[1..])
  }

  function ScrubCell(v: Value): Value
  {
    if v.Inf? then Missing else v
  }

  predicate NoInfinity(t: RawTable)
  {
    forall i, k :: 0 <= i < |t.columns| && 0 <= k < |t.columns[i].cells| ==> !t.columns[i].cells[k].Inf?
  }

  /** `df.replace([np.inf, -np.inf], np.nan)` over the whole table. */
  function Scrub(t: Frame): (r: Frame)
    ensures NoInfinity(r)
    ensures r.height == t.height && |r.columns| == |t.columns|
    ensures forall i :: 0 <= i < |t.columns| ==> r.columns[i].name == t.columns[i].name
    ensures forall i, k :: 0 <= i < |t.columns| && 0 <= k < t.height && !t.columns[i].cells[k].Inf? ==>
              r.columns[i].cells[k] == t.columns[i].cells[k]
    ensures forall i, k :: 0 <= i < |t.columns| && 0 <= k < t.height && t.columns[i].cells[k].Inf? ==>
              r.columns[i].cells[k] == Missing
  {
    RawTable(seq(|t.columns|, i requires 0 <= i < |t.columns| =>
               Column(t.columns[i].name,
                      seq(|t.columns[i].cells|, k requires 0 <= k < |t.columns[i].cells| =>
                        ScrubCell(t.columns[i].cells[k])))),
             t.height)
  }

  /** `add_feature_engineering`. */
  function Engineer(t: Frame): (r: Result<Frame, Error>)
    ensures r.Ok? ==> NoInfinity(r.value)
  {
    var r :- Apply(t, Derivations);
    Ok(Scrub(r))
  }

  // ---------------------------------------------------------------------
  // Facts about the derivation list

  function Outputs(ds: seq<Derivation>): set<string>
  {
    set i | 0 <= i < |ds| :: ds[i].output
  }

  /** No derivation reads a column another one writes, and no two write the
      same column. */
  ghost predicate Independent(ds: seq<Derivation>)
  {
    && (forall i, j :: 0 <= i < |ds| && 0 <= j < |ds| ==>
          ds[i].output != ds[j].numerator && ds[i].output != ds[j].denominator)
    && (forall i, j :: 0 <= i < j < |ds| ==> ds[i].output != ds[j].output)
  }

  lemma DerivationsIndependent()
    ensures Independent(Derivations)
  {
  }

  // ---------------------------------------------------------------------
  // One derivation step

  /** A single step fails exactly when its guard holds and a source is
      repeated or holds text; otherwise it leaves the table alone or stores
      the derived column. */
  lemma AddRatioStep(t: Frame, d: Derivation)
    ensures AddRatio(t, d).Ok? <==> (Guard(t, d) ==> Usable(t, d))
    ensures !Guard(t, d) ==> AddRatio(t, d) == Ok(t)
    ensures Guard(t, d) && Usable(t, d) ==> AddRatio(t, d) == Put(t, d.output, Derived(t, d))
  {
    if Guard(t, d) && Usable(t, d) {
      var num := Get(t, d.numerator).value;
      var den := Get(t, d.denominator).value;
      assert forall k :: 0 <= k < |num| ==> Quotient(num[k], den[k]).Some?;
      assert Ratio(num, den, d.output).Ok?;
      assert Ratio(num, den, d.output).value == Derived(t, d);
    }
  }

  /** A step writing `d0.output` changes nothing a derivation reading other
      columns can see. */
  lemma StepKeepsSources(t: Frame, d0: Derivation, d: Derivation)
    requires AddRatio(t, d0).Ok?
    requires d.numerator != d0.output && d.denominator != d0.output
    ensures AddRatio(t, d0).value.height == t.height
    ensures Guard(AddRatio(t, d0).value, d) == Guard(t, d)
    ensures Usable(AddRatio(t, d0).value, d) == Usable(t, d)
    ensures Usable(t, d) ==> Derived(AddRatio(t, d0).value, d) == Derived(t, d)
  {
    AddRatioStep(t, d0);
    if Guard(t, d0) {
      PutLeavesOtherLabels(t, d0.output, Derived(t, d0), d.numerator);
      PutLeavesOtherLabels(t, d0.output, Derived(t, d0), d.denominator);
    }
  }

  /** The column layout after one step. */
  lemma StepShape(t: Frame, d: Derivation)
    requires AddRatio(t, d).Ok?
    ensures var r := AddRatio(t, d).value;
      && r.height == t.height
      && |r.columns| >= |t.columns|
      && (forall i :: 0 <= i < |t.columns| ==> r.columns[i].name == t.columns[i].name)
      && (forall i :: 0 <= i < |t.columns| && t.columns[i].name != d.output ==> r.columns[i] == t.columns[i])
      && (forall i :: |t.columns| <= i < |r.columns| ==> r.columns[i].name == d.output)
      && (Has(r, d.output) <==> Has(t, d.output) || Guard(t, d))
      && (Guard(t, d) ==> forall i :: 0 <= i < |r.columns| && r.columns[i].name == d.output ==>
            r.columns[i].cells == Derived(t, d))
  {
    AddRatioStep(t, d);
    if Guard(t, d) {
      PutKeepsOthers(t, d.output, Derived(t, d));
    }
  }

  // ---------------------------------------------------------------------
  // The whole fold

  lemma {:induction false} ApplyOkIff(t: Frame, ds: seq<Derivation>)
    requires Independent(ds)
    ensures Apply(t, ds).Ok? <==> forall d :: d in ds && Guard(t, d) ==> Usable(t, d)
    decreases |ds|
  {
    if |ds| > 0 {
      AddRatioStep(t, ds[0]);
      if AddRatio(t, ds[0]).Ok? {
        var t' := AddRatio(t, ds[0]).value;
        assert Independent(ds[1..]);
        ApplyOkIff(t', ds[1..]);
        forall d | d in ds[1..]
          ensures Guard(t', d) == Guard(t, d) && Usable(t', d) == Usable(t, d)
        {
          StepKeepsSources(t, ds[0], d);
        }
        assert forall d :: d in ds <==> d == ds[0] || d in ds[1..];
      }
    }
  }

  lemma {:induction false} ApplyShape(t: Frame, ds: seq<Derivation>)
    requires Independent(ds)
    requires Apply(t, ds).Ok?
    ensures var r := Apply(t, ds).value;
      && r.height == t.height
      && |r.columns| >= |t.columns|
      && (forall i :: 0 <= i < |t.columns| ==> r.columns[i].name == t.columns[i].name)
      && (forall i :: 0 <= i < |t.columns| && t.columns[i].name !in Outputs(ds) ==> r.columns[i] == t.columns[i])
      && (forall i :: |t.columns| <= i < |r.columns| ==> r.columns[i].name in Outputs(ds))
    decreases |ds|
  {
    if |ds| > 0 {
      var t' := AddRatio(t, ds[0]).value;
      StepShape(t, ds[0]);
      assert Independent(ds[1..]);
      ApplyShape(t', ds[1..]);
      assert Outputs(ds) == {ds[0].output} + Outputs(ds[1..]);
    }
  }

  /** Labels no derivation writes are present afterwards exactly when they
      were present before. */
  lemma ApplyKeepsOtherLabels(t: Frame, ds: seq<Derivation>, n: string)
    requires Independent(ds)
    requires Apply(t, ds).Ok?
    requires n !in Outputs(ds)
    ensures Has(Apply(t, ds).value, n) == Has(t, n)
  {
    ApplyShape(t, ds);
  }

  lemma {:induction false} ApplyPresence(t: Frame, ds: seq<Derivation>, d: Derivation)
    requires Independent(ds)
    requires Apply(t, ds).Ok?
    requires d in ds
    ensures Has(Apply(t, ds).value, d.output) <==> Has(t, d.output) || Guard(t, d)
    decreases |ds|
  {
    var t' := AddRatio(t, ds[0]).value;
    StepShape(t, ds[0]);
    assert Independent(ds[1..]);
    if d == ds[0] {
      assert d.output !in Outputs(ds[1..]);
      ApplyKeepsOtherLabels(t', ds[1..], d.output);
    } else {
      assert d in ds[1..];
      ApplyPresence(t', ds[1..], d);
      StepKeepsSources(t, ds[0], d);
      assert d.output != ds[0].output;
      AddRatioStep(t, ds[0]);
      if Guard(t, ds[0]) {
        PutLeavesOtherLabels(t, ds[0].output, Derived(t, ds[0]), d.output);
      }
    }
  }

  lemma {:induction false} ApplyValues(t: Frame, ds: seq<Derivation>, d: Derivation)
    requires Independent(ds)
    requires Apply(t, ds).Ok?
    requires d in ds && Guard(t, d)
    ensures Usable(t, d)
    ensures var r := Apply(t, ds).value;
      forall i :: 0 <= i < |r.columns| && r.columns[i].name == d.output ==> r.columns[i].cells == Derived(t, d)
    decreases |ds|
  {
    ApplyOkIff(t, ds);
    var t' := AddRatio(t, ds[0]).value;
    StepShape(t, ds[0]);
    assert Independent(ds[1..]);
    if d == ds[0] {
      assert d.output !in Outputs(ds[1..]);
      ApplyShape(t', ds[1..]);
    } else {
      assert d in ds[1..];
      StepKeepsSources(t, ds[0], d);
      ApplyValues(t', ds[1..], d);
    }
  }

  // ---------------------------------------------------------------------
  // The engineering step as the backend promises it

  /** Engineering fails exactly when some derivation whose sources are both
      present cannot divide them: a source label is repeated, or a source
      column holds text. */
  lemma EngineerSucceedsIff(t: Frame)
    ensures Engineer(t).Ok? <==> forall d :: d in Derivations && Guard(t, d) ==> Usable(t, d)
  {
    DerivationsIndependent();
    ApplyOkIff(t, Derivations);
  }

  /** Rows, row order and every pre-existing column survive: columns keep
      their place and label, and a column that is not one of the six derived
      labels keeps its cells apart from infinities turned into missing
      values. New columns appear only at the end and only with derived
      labels. */
  lemma EngineerPreservesTable(t: Frame)
    requires Engineer(t).Ok?
    ensures var r := Engineer(t).value;
      && r.height == t.height
      && |r.columns| >= |t.columns|
      && (forall i :: 0 <= i < |t.columns| ==> r.columns[i].name == t.columns[i].name)
      && (forall i, k :: 0 <= i < |t.columns| && t.columns[i].name !in Outputs(Derivations) && 0 <= k < t.height ==>
            r.columns[i].cells[k] == ScrubCell(t.columns[i].cells[k]))
      && (forall i :: |t.columns| <= i < |r.columns| ==> r.columns[i].name in Outputs(Derivations))
  {
    DerivationsIndependent();
    ApplyShape(t, Derivations);
  }

  /** A derived column is present afterwards exactly when it was already
      there or both of its sources are: with a source missing nothing is
      added and nothing fails. */
  lemma EngineerCreatesIff(t: Frame, d: Derivation)
    requires d in Derivations
    requires Engineer(t).Ok?
    ensures Has(Engineer(t).value, d.output) <==> Has(t, d.output) || Guard(t, d)
  {
    DerivationsIndependent();
    ApplyPresence(t, Derivations, d);
    var a := Apply(t, Derivations).value;
    var r := Engineer(t).value;
    assert Has(r, d.output) <==> Has(a, d.output) by {
      if Has(a, d.output) {
        var i :| 0 <= i < |a.columns| && a.columns[i].name == d.output;
        assert r.columns[i].name == d.output;
      }
      if Has(r, d.output) {
        var i :| 0 <= i < |r.columns| && r.columns[i].name == d.output;
        assert a.columns[i].name == d.output;
      }
    }
  }

  /** Each row of a derived column is the quotient of its sources' cells
      with infinities scrubbed: a zero denominator gives a missing value, two
      numbers with a non-zero denominator give their quotient. */
  lemma EngineerRatioValues(t: Frame, d: Derivation, i: nat, k: nat)
    requires d in Derivations && Guard(t, d)
    requires Engineer(t).Ok?
    requires i < |Engineer(t).value.columns| && Engineer(t).value.columns[i].name == d.output
    requires k < t.height
    ensures Engineer(t).value.height == t.height
    ensures Get(t, d.numerator).Ok? && Get(t, d.denominator).Ok?
    ensures var num := Get(t, d.numerator).value[k];
      var den := Get(t, d.denominator).value[k];
      var cell := Engineer(t).value.columns[i].cells[k];
      && Quotient(num, den).Some?
      && cell == ScrubCell(Quotient(num, den).value)
      && (den == Num(0.0) ==> cell == Missing)
      && (num.Num? && den.Num? && den.x != 0.0 ==> cell == Num(num.x / den.x))
  {
    DerivationsIndependent();
    ApplyShape(t, Derivations);
    ApplyValues(t, Derivations, d);
  }
}

=== FILE: formatter.dfy ===
/** Turning the classifier's probabilities into the service's answer: the
    stable argmax, confidence and Dropout-risk percentages, per-class
    percentages, and the batch variant that appends them as columns. */
module Formatter {
  import opened Wrappers
  import opened Tables
  import opened Rounding
  import Text

  /** The class whose probability is reported as the risk score. */
  const RiskClass: string := "Dropout"

  datatype Prediction = Prediction(
    outcome: string,
    confidence: real,
    dropoutRisk: real,
    probsPercent: map<string, real>)

  /** A probability matrix as `predict_proba` returns it: one row per input
      row, one column per class, rectangular. */
  datatype RawMatrix = RawMatrix(rows: seq<seq<real>>, width: nat)

  type Matrix = m: RawMatrix | forall k :: 0 <= k < |m.rows| ==> |m.rows[k]| == m.width
    witness RawMatrix([], 0)

  /** `i` is the first index at which `s` attains its maximum. */
  ghost predicate FirstMax(s: seq<real>, i: int)
  {
    && 0 <= i < |s|
    && (forall j :: 0 <= j < |s| ==> s[j] <= s[i])
    && (forall j :: 0 <= j < i ==> s[j] < s[i])
  }

  /** `np.argmax`: ties go to the lowest index. */
  function ArgMax(s: seq<real>): (i: nat)
    requires |s| > 0
    ensures FirstMax(s, i)
  {
    if |s| == 1 then 0
    else
      var k := ArgMax(s[1..]) + 1;
      if s[0] >= s[k] then 0 else k
  }

  /** `np.max`. */
  function Max(s: seq<real>): (m: real)
    requires |s| > 0
    ensures m in s
    ensures forall j :: 0 <= j < |s| ==> s[j] <= m
  {
    if |s| == 1 then s[0]
    else
      var m' := Max(s[1..]);
      if s[0] >= m' then s[0] else m'
  }

  /** The maximum is the value at the stable argmax, which is the only first
      maximal index. */
  lemma MaxAtArgMax(s: seq<real>, i: int)
    requires |s| > 0
    requires FirstMax(s, i)
    ensures i == ArgMax(s)
    ensures s[i] == Max(s)
  {
  }

  /** `i` is the position of the first occurrence of `x`. */
  ghost predicate FirstIndexOf(s: seq<string>, x: string, i: int)
  {
    0 <= i < |s| && s[i] == x && forall j :: 0 <= j < i ==> s[j] != x
  }

  /** `list.index(x)`, with `None` for Python's ValueError. */
  function IndexOf(s: seq<string>, x: string): (r: Option<nat>)
    ensures r.Some? ==> FirstIndexOf(s, x, r.value)
    ensures r.None? <==> x !in s
  {
    if |s| == 0 then None
    else if s[0] == x then Some(0)
    else match IndexOf(s[1..], x)
      case None => None
      case Some(k) => Some(k + 1)
  }

  /** A probability as a percentage with one decimal place. */
  function Percent(p: real): real
  {
    Round1(p * 100.0)
  }

  /** `{classes[i]: pct(prob[i]) for i in range(len(classes))}`. */
  function PercentMap(classes: seq<string>, prob: seq<real>): map<string, real>
    requires |classes| <= |prob|
    decreases |classes|
  {
    if |classes| == 0 then map[]
    else
      var n := |classes| - 1;
      PercentMap(classes[..n], prob)[classes[n] := Percent(prob[n])]
  }

  /** The percentage map has one key per class, and a class listed once maps
      to its own probability as a percentage; a repeated class keeps the value
      of its last occurrence. */
  lemma {:induction false} PercentMapEntries(classes: seq<string>, prob: seq<real>)
    requires |classes| <= |prob|
    ensures forall c :: c in PercentMap(classes, prob) <==> c in classes
    ensures forall i :: 0 <= i < |classes| && (forall j :: i < j < |classes| ==> classes[j] != classes[i]) ==>
              PercentMap(classes, prob)[classes[i]] == Percent(prob[i])
    decreases |classes|
  {
    if |classes| > 0 {
      var n := |classes| - 1;
      var init := classes[..n];
      PercentMapEntries(init, prob);
      assert classes == init + [classes[n]];
      var m := PercentMap(classes, prob);
      forall i | 0 <= i < |classes| && (forall j :: i < j < |classes| ==> classes[j] != classes[i])
        ensures m[classes[i]] == Percent(prob[i])
      {
        if i < n {
          assert classes[n] != classes[i];
          assert init[i] == classes[i];
          assert forall j :: i < j < n ==> init[j] == classes[j];
        }
      }
    }
  }

  /** The single-record path's formatting (`predict`), failing where Python
      would: empty probabilities (argmax of nothing), an argmax or class
      index past the end of a list, or no "Dropout" class. */
  function FormatSingle(prob: seq<real>, classes: seq<string>): (r: Result<Prediction, Error>)
    ensures r.Ok? <==>
      && |prob| > 0
      && (forall i :: FirstMax(prob, i) ==> i < |classes|)
      && RiskClass in classes
      && |classes| <= |prob|
    ensures |prob| == 0 ==> r == Err(EmptyArgmax)
    ensures |prob| > 0 && (forall i :: FirstMax(prob, i) ==> i < |classes|) && RiskClass !in classes ==>
              r == Err(ClassNotFound(RiskClass))
    ensures r.Ok? ==>
              exists i :: FirstMax(prob, i) && i < |classes| &&
                r.value.outcome == classes[i] && r.value.confidence == Percent(prob[i])
    ensures r.Ok? ==> exists d :: FirstIndexOf(classes, RiskClass, d) && r.value.dropoutRisk == Percent(prob[d])
    ensures r.Ok? ==> forall c :: c in r.value.probsPercent <==> c in classes
    ensures r.Ok? ==> r.value.probsPercent == PercentMap(classes, prob)
  {
    if |prob| == 0 then Err(EmptyArgmax)
    else
      var i := ArgMax(prob);
      assert forall j :: FirstMax(prob, j) ==> j == i by {
        forall j | FirstMax(prob, j) ensures j == i { MaxAtArgMax(prob, j); }
      }
      if i >= |classes| then Err(IndexOutOfRange)
      else match IndexOf(classes, RiskClass)
        case None => Err(ClassNotFound(RiskClass))
        case Some(d) =>
          if d >= |prob| || |classes| > |prob| then Err(IndexOutOfRange)
          else
            PercentMapEntries(classes, prob);
            Ok(Prediction(classes[i], Percent(prob[i]), Percent(prob[d]), PercentMap(classes, prob)))
  }

  // ---------------------------------------------------------------------
  // Ranges and rounding of the reported percentages

  /** A probability in [0, 1] becomes a percentage in [0, 100]. */
  lemma PercentRange(p: real)
    requires 0.0 <= p <= 1.0
    ensures 0.0 <= Percent(p) <= 100.0
  {
    var n := RoundHalfEven(p * 100.0 * 10.0);
    assert -1 < n < 1001;
  }

  /** With probabilities in [0, 1], every reported percentage lies in
      [0, 100], and the confidence is never below the Dropout risk, since the
      top class is at least as likely as any other. */
  lemma FormatSingleBounds(prob: seq<real>, classes: seq<string>)
    requires FormatSingle(prob, classes).Ok?
    requires forall j :: 0 <= j < |prob| ==> 0.0 <= prob[j] <= 1.0
    ensures 0.0 <= FormatSingle(prob, classes).value.confidence <= 100.0
    ensures 0.0 <= FormatSingle(prob, classes).value.dropoutRisk <= 100.0
    ensures FormatSingle(prob, classes).value.dropoutRisk <= FormatSingle(prob, classes).value.confidence
    ensures forall c :: c in FormatSingle(prob, classes).value.probsPercent ==>
              0.0 <= FormatSingle(prob, classes).value.probsPercent[c] <= 100.0
  {
    var r := FormatSingle(prob, classes).value;
    var i :| FirstMax(prob, i) && i < |classes| && r.outcome == classes[i] && r.confidence == Percent(prob[i]);
    var d :| FirstIndexOf(classes, RiskClass, d) && r.dropoutRisk == Percent(prob[d]);
    MaxAtArgMax(prob, i);
    PercentOrder(prob, i, d);
    PercentMapValues(classes, prob);
  }

  /** The percentage of the largest probability bounds every other one. */
  lemma PercentOrder(prob: seq<real>, i: nat, d: nat)
    requires |prob| > 0 && i == ArgMax(prob) && d < |prob|
    requires forall j :: 0 <= j < |prob| ==> 0.0 <= prob[j] <= 1.0
    ensures 0.0 <= Percent(prob[d]) <= Percent(prob[i]) <= 100.0
  {
    assert prob[d] <= prob[i];
    PercentRange(prob[i]);
    PercentRange(prob[d]);
    Round1Monotone(prob[d] * 100.0, prob[i] * 100.0);
  }

  /** Every value in the percentage map is the percentage of some listed
      probability. */
  lemma {:induction false} PercentMapValues(classes: seq<string>, prob: seq<real>)
    requires |classes| <= |prob|
    requires forall j :: 0 <= j < |prob| ==> 0.0 <= prob[j] <= 1.0
    ensures forall c :: c in PercentMap(classes, prob) ==> 0.0 <= PercentMap(classes, prob)[c] <= 100.0
    decreases |classes|
  {
    if |classes| > 0 {
      PercentMapValues(classes[..|classes| - 1], prob);
      PercentRange(prob[|classes| - 1]);
    }
  }

  function Sum(s: seq<real>): real
  {
    if |s| == 0 then 0.0 else s[0] + Sum(s[1..])
  }

  /** The per-class percentages in class order. */
  function PercentRow(prob: seq<real>): seq<real>
  {
    seq(|prob|, i requires 0 <= i < |prob| => Percent(prob[i]))
  }

  /** Rounding each class to one decimal moves the total by at most 0.05 per
      class. */
  lemma {:induction false} PercentRowSum(prob: seq<real>)
    ensures 100.0 * Sum(prob) - |prob| as real / 20.0 <= Sum(PercentRow(prob))
    ensures Sum(PercentRow(prob)) <= 100.0 * Sum(prob) + |prob| as real / 20.0
  {
    if |prob| > 0 {
      PercentRowSum(prob[1..]);
      assert PercentRow(prob)[1..] == PercentRow(prob[1..]);
    }
  }

  /** For a probability vector summing to 1, the per-class percentages sum to
      100 up to the rounding tolerance. */
  lemma PercentagesSumToHundred(prob: seq<real>)
    requires Sum(prob) == 1.0
    ensures 100.0 - |prob| as real / 20.0 <= Sum(PercentRow(prob)) <= 100.0 + |prob| as real / 20.0
  {
    PercentRowSum(prob);
  }

  // ---------------------------------------------------------------------
  // Batch formatting (`predict_csv`)

  /** `[classes[i] for i in np.argmax(probs, axis=1)]`. */
  function LabelCells(m: Matrix, classes: seq<string>): seq<Value>
    requires m.width > 0
    requires forall k :: 0 <= k < |m.rows| ==> ArgMax(m.rows[k]) < |classes|
  {
    seq(|m.rows|, k requires 0 <= k < |m.rows| => Str(classes[ArgMax(m.rows[k])]))
  }

  /** `np.round(np.max(probs, axis=1) * 100, 1)`. */
  function ConfidenceCells(m: Matrix): seq<Value>
    requires m.width > 0
  {
    seq(|m.rows|, k requires 0 <= k < |m.rows| => Num(Percent(Max(m.rows[k]))))
  }

  /** `np.round(probs[:, i] * 100, 1)`. */
  function ProbCells(m: Matrix, i: nat): seq<Value>
    requires i < m.width
  {
    seq(|m.rows|, k requires 0 <= k < |m.rows| => Num(Percent(m.rows[k][i])))
  }

  function ProbColumnName(c: string): string
  {
    "prob_" + Text.Lower(c)
  }

  /** The per-class loop `for i, c in enumerate(classes)`, from class `i` on. */
  function PutProbColumns(t: Frame, m: Matrix, classes: seq<string>, i: nat): (r: Result<Frame, Error>)
    requires i <= |classes|
    ensures r.Ok? <==> (i < |classes| ==> |classes| <= m.width && |m.rows| == t.height)
    ensures r.Ok? ==> r.value.height == t.height
    ensures r.Err? ==> r.error == IndexOutOfRange || r.error == LengthMismatch
    decreases |classes| - i
  {
    if i == |classes| then Ok(t)
    else if i >= m.width then Err(IndexOutOfRange)
    else
      var t' :- Put(t, ProbColumnName(classes[i]), ProbCells(m, i));
      PutProbColumns(t', m, classes, i + 1)
  }

  /** The batch path's formatting: the input table with `prediction`,
      `confidence`, `dropout_risk_score` and one `prob_<class>` column set. */
  function FormatBatch(t: Frame, m: Matrix, classes: seq<string>): (r: Result<Frame, Error>)
    ensures r.Ok? ==> r.value.height == t.height
    ensures m.width == 0 ==> r == Err(EmptyArgmax)
    ensures m.width > 0 && (exists k :: 0 <= k < |m.rows| && ArgMax(m.rows[k]) >= |classes|) ==>
              r == Err(IndexOutOfRange)
    ensures m.width > 0 && (forall k :: 0 <= k < |m.rows| ==> ArgMax(m.rows[k]) < |classes|) && RiskClass !in classes ==>
              r == Err(ClassNotFound(RiskClass))
  {
    if m.width == 0 then Err(EmptyArgmax)
    else if exists k :: 0 <= k < |m.rows| && ArgMax(m.rows[k]) >= |classes| then Err(IndexOutOfRange)
    else match IndexOf(classes, RiskClass)
      case None => Err(ClassNotFound(RiskClass))
      case Some(d) =>
        if d >= m.width then Err(IndexOutOfRange)
        else
          var out1 :- Put(t, "prediction", LabelCells(m, classes));
          var out2 :- Put(out1, "confidence", ConfidenceCells(m));
          var out3 :- Put(out2, "dropout_risk_score", ProbCells(m, d));
          PutProbColumns(out3, m, classes, 0)
  }

  /** The batch answer exists exactly when the probability matrix is not
      empty, every row's winner has a class name, the model knows
      "Dropout", there is a probability column for every class, and there
      is one probability row per table row. */
  lemma FormatBatchOkIff(t: Frame, m: Matrix, classes: seq<string>)
    ensures FormatBatch(t, m, classes).Ok? <==>
              && m.width > 0
              && (forall k :: 0 <= k < |m.rows| ==> ArgMax(m.rows[k]) < |classes|)
              && RiskClass in classes
              && |classes| <= m.width
              && |m.rows| == t.height
  {
    if m.width > 0 && RiskClass in classes {
      var d := IndexOf(classes, RiskClass).value;
      assert d < |classes|;
    }
  }

  /** The labels of the columns the batch path sets. */
  function BatchLabels(classes: seq<string>): set<string>
  {
    {"prediction", "confidence", "dropout_risk_score"} + set c | c in classes :: ProbColumnName(c)
  }

  lemma ProbColumnNameDiffers(c: string)
    ensures ProbColumnName(c) != "prediction"
    ensures ProbColumnName(c) != "confidence"
    ensures ProbColumnName(c) != "dropout_risk_score"
  {
    assert ProbColumnName(c)[2] == 'o' && "prediction"[2] == 'e';
    assert ProbColumnName(c)[0] == 'p' && "confidence"[0] == 'c' && "dropout_risk_score"[0] == 'd';
  }

  /** The per-class loop keeps the rows, keeps every earlier column in place,
      only touches `prob_` labels, and succeeds only when every class has a
      probability column. */
  lemma {:induction false} ProbColumnsShape(t: Frame, m: Matrix, classes: seq<string>, i: nat)
    requires i <= |classes|
    requires PutProbColumns(t, m, classes, i).Ok?
    ensures var r := PutProbColumns(t, m, classes, i).value;
      && r.height == t.height
      && (|classes| <= m.width || i == |classes|)
      && |r.columns| >= |t.columns|
      && (forall j :: 0 <= j < |t.columns| ==> r.columns[j].name == t.columns[j].name)
      && (forall j :: 0 <= j < |t.columns| && t.columns[j].name !in BatchLabels(classes) ==> r.columns[j] == t.columns[j])
      && (forall j :: |t.columns| <= j < |r.columns| ==> r.columns[j].name in BatchLabels(classes))
    decreases |classes| - i
  {
    if i < |classes| {
      var n := ProbColumnName(classes[i]);
      var t' := Put(t, n, ProbCells(m, i)).value;
      PutKeepsOthers(t, n, ProbCells(m, i));
      assert n in BatchLabels(classes);
      ProbColumnsShape(t', m, classes, i + 1);
    }
  }

  /** A label the per-class loop does not write keeps its contents. */
  lemma {:induction false} ProbColumnsKeep(t: Frame, m: Matrix, classes: seq<string>, i: nat, n: string, cells: seq<Value>)
    requires i <= |classes|
    requires PutProbColumns(t, m, classes, i).Ok?
    requires forall l :: i <= l < |classes| ==> ProbColumnName(classes[l]) != n
    requires ColumnIs(t, n, cells)
    ensures ColumnIs(PutProbColumns(t, m, classes, i).value, n, cells)
    decreases |classes| - i
  {
    if i < |classes| {
      var t' := Put(t, ProbColumnName(classes[i]), ProbCells(m, i)).value;
      PutColumnIs(t, ProbColumnName(classes[i]), ProbCells(m, i), n, cells);
      ProbColumnsKeep(t', m, classes, i + 1, n, cells);
    }
  }

  /** The first failing check settles the batch outcome; success means every
      row formats on its own. */
  lemma BatchRowsFormat(t: Frame, m: Matrix, classes: seq<string>, k: nat)
    requires FormatBatch(t, m, classes).Ok?
    requires k < |m.rows|
    ensures FormatSingle(m.rows[k], classes).Ok?
    ensures FormatSingle(m.rows[k], classes).value.outcome == classes[ArgMax(m.rows[k])]
    ensures FormatSingle(m.rows[k], classes).value.confidence == Percent(Max(m.rows[k]))
    ensures FormatSingle(m.rows[k], classes).value.dropoutRisk == Percent(m.rows[k][IndexOf(classes, RiskClass).value])
  {
    var row := m.rows[k];
    var d := IndexOf(classes, RiskClass).value;
    var out1 := Put(t, "prediction", LabelCells(m, classes)).value;
    var out2 := Put(out1, "confidence", ConfidenceCells(m)).value;
    var out3 := Put(out2, "dropout_risk_score", ProbCells(m, d)).value;
    ProbColumnsShape(out3, m, classes, 0);
    forall i | FirstMax(row, i) ensures i < |classes| {
      MaxAtArgMax(row, i);
    }
    var p := FormatSingle(row, classes).value;
    var i :| FirstMax(row, i) && i < |classes| && p.outcome == classes[i] && p.confidence == Percent(row[i]);
    MaxAtArgMax(row, i);
    var d' :| FirstIndexOf(classes, RiskClass, d') && p.dropoutRisk == Percent(row[d']);
    assert d' == d;
  }

  /** Every class gets its probability column; a class whose lower-cased
      name no later class shares holds its own row-wise percentages there. */
  lemma {:induction false} ProbColumnsValues(t: Frame, m: Matrix, classes: seq<string>, i: nat, j: nat)
    requires i <= j < |classes|
    requires PutProbColumns(t, m, classes, i).Ok?
    ensures j < m.width
    ensures Has(PutProbColumns(t, m, classes, i).value, ProbColumnName(classes[j]))
    ensures (forall l :: j < l < |classes| ==> ProbColumnName(classes[l]) != ProbColumnName(classes[j])) ==>
              ColumnIs(PutProbColumns(t, m, classes, i).value, ProbColumnName(classes[j]), ProbCells(m, j))
    decreases |classes| - i
  {
    var n := ProbColumnName(classes[i]);
    var t' := Put(t, n, ProbCells(m, i)).value;
    PutKeepsOthers(t, n, ProbCells(m, i));
    if i < j {
      ProbColumnsValues(t', m, classes, i + 1, j);
    } else {
      ProbColumnsShape(t', m, classes, i + 1);
      var r := PutProbColumns(t', m, classes, i + 1).value;
      var q :| 0 <= q < |t'.columns| && t'.columns[q].name == n;
      assert r.columns[q].name == n;
      if forall l :: j < l < |classes| ==> ProbColumnName(classes[l]) != n {
        PutColumnIs(t, n, ProbCells(m, i), n, ProbCells(m, i));
        ProbColumnsKeep(t', m, classes, i + 1, n, ProbCells(m, i));
      }
    }
  }

  /** The intermediate tables of a successful batch. */
  lemma BatchSteps(t: Frame, m: Matrix, classes: seq<string>)
    requires FormatBatch(t, m, classes).Ok?
    ensures m.width > 0 && IndexOf(classes, RiskClass).Some? && IndexOf(classes, RiskClass).value < m.width
    ensures forall k :: 0 <= k < |m.rows| ==> ArgMax(m.rows[k]) < |classes|
    ensures |m.rows| == t.height
    ensures var d := IndexOf(classes, RiskClass).value;
      && Put(t, "prediction", LabelCells(m, classes)).Ok?
      && var out1 := Put(t, "prediction", LabelCells(m, classes)).value;
      && Put(out1, "confidence", ConfidenceCells(m)).Ok?
      && var out2 := Put(out1, "confidence", ConfidenceCells(m)).value;
      && Put(out2, "dropout_risk_score", ProbCells(m, d)).Ok?
      && var out3 := Put(out2, "dropout_risk_score", ProbCells(m, d)).value;
      && FormatBatch(t, m, classes) == PutProbColumns(out3, m, classes, 0)
  {
  }

  /** The three summary columns a successful batch writes. */
  lemma BatchSummaryColumns(t: Frame, m: Matrix, classes: seq<string>)
    requires FormatBatch(t, m, classes).Ok?
    ensures m.width > 0 && IndexOf(classes, RiskClass).Some? && IndexOf(classes, RiskClass).value < m.width
    ensures forall k :: 0 <= k < |m.rows| ==> ArgMax(m.rows[k]) < |classes|
    ensures |m.rows| == t.height
    ensures var out := FormatBatch(t, m, classes).value;
      && ColumnIs(out, "prediction", LabelCells(m, classes))
      && ColumnIs(out, "confidence", ConfidenceCells(m))
      && ColumnIs(out, "dropout_risk_score", ProbCells(m, IndexOf(classes, RiskClass).value))
  {
    BatchSteps(t, m, classes);
    var d := IndexOf(classes, RiskClass).value;
    var lc := LabelCells(m, classes);
    var cc := ConfidenceCells(m);
    var rc := ProbCells(m, d);
    var out1 := Put(t, "prediction", lc).value;
    PutColumnIs(t, "prediction", lc, "prediction", lc);
    var out2 := Put(out1, "confidence", cc).value;
    PutColumnIs(out1, "confidence", cc, "prediction", lc);
    var out3 := Put(out2, "dropout_risk_score", rc).value;
    PutColumnIs(out2, "dropout_risk_score", rc, "prediction", lc);
    PutColumnIs(out2, "dropout_risk_score", rc, "confidence", cc);
    forall c ensures ProbColumnName(c) != "prediction" && ProbColumnName(c) != "confidence" &&
                     ProbColumnName(c) != "dropout_risk_score" {
      ProbColumnNameDiffers(c);
    }
    ProbColumnsKeep(out3, m, classes, 0, "prediction", lc);
    ProbColumnsKeep(out3, m, classes, 0, "confidence", cc);
    ProbColumnsKeep(out3, m, classes, 0, "dropout_risk_score", rc);
  }

  /** Batch and single-record paths agree: in every row of the batch output,
      the label, confidence and risk score are what the single-record path
      reports for that row's probabilities. */
  lemma BatchAgreesWithSingle(t: Frame, m: Matrix, classes: seq<string>)
    requires FormatBatch(t, m, classes).Ok?
    ensures |m.rows| == t.height
    ensures forall k :: 0 <= k < |m.rows| ==> FormatSingle(m.rows[k], classes).Ok?
    ensures var out := FormatBatch(t, m, classes).value;
      && ColumnIs(out, "prediction",
           seq(|m.rows|, k requires 0 <= k < |m.rows| => Str(FormatSingle(m.rows[k], classes).value.outcome)))
      && ColumnIs(out, "confidence",
           seq(|m.rows|, k requires 0 <= k < |m.rows| => Num(FormatSingle(m.rows[k], classes).value.confidence)))
      && ColumnIs(out, "dropout_risk_score",
           seq(|m.rows|, k requires 0 <= k < |m.rows| => Num(FormatSingle(m.rows[k], classes).value.dropoutRisk)))
  {
    BatchSummaryColumns(t, m, classes);
    forall k | 0 <= k < |m.rows|
      ensures FormatSingle(m.rows[k], classes).Ok?
      ensures LabelCells(m, classes)[k] == Str(FormatSingle(m.rows[k], classes).value.outcome)
      ensures ConfidenceCells(m)[k] == Num(FormatSingle(m.rows[k], classes).value.confidence)
      ensures ProbCells(m, IndexOf(classes, RiskClass).value)[k] == Num(FormatSingle(m.rows[k], classes).value.dropoutRisk)
    {
      BatchRowsFormat(t, m, classes, k);
    }
    var out := FormatBatch(t, m, classes).value;
    assert LabelCells(m, classes) ==
      seq(|m.rows|, k requires 0 <= k < |m.rows| => Str(FormatSingle(m.rows[k], classes).value.outcome));
    assert ConfidenceCells(m) ==
      seq(|m.rows|, k requires 0 <= k < |m.rows| => Num(FormatSingle(m.rows[k], classes).value.confidence));
    assert ProbCells(m, IndexOf(classes, RiskClass).value) ==
      seq(|m.rows|, k requires 0 <= k < |m.rows| => Num(FormatSingle(m.rows[k], classes).value.dropoutRisk));
  }

  /** The batch output is the input table with columns set, never removed:
      rows and row count are kept, every input column keeps its place and
      label, a column whose label the batch does not write keeps its cells,
      and whatever is new sits at the end under a batch label. Every class
      gets a `prob_` column. */
  lemma BatchPreservesTable(t: Frame, m: Matrix, classes: seq<string>)
    requires FormatBatch(t, m, classes).Ok?
    ensures var out := FormatBatch(t, m, classes).value;
      && out.height == t.height
      && |out.columns| >= |t.columns|
      && (forall j :: 0 <= j < |t.columns| ==> out.columns[j].name == t.columns[j].name)
      && (forall j :: 0 <= j < |t.columns| && t.columns[j].name !in BatchLabels(classes) ==> out.columns[j] == t.columns[j])
      && (forall j :: |t.columns| <= j < |out.columns| ==> out.columns[j].name in BatchLabels(classes))
      && (forall c :: c in classes ==> Has(out, ProbColumnName(c)))
  {
    BatchSteps(t, m, classes);
    var d := IndexOf(classes, RiskClass).value;
    var out1 := Put(t, "prediction", LabelCells(m, classes)).value;
    var out2 := Put(out1, "confidence", ConfidenceCells(m)).value;
    var out3 := Put(out2, "dropout_risk_score", ProbCells(m, d)).value;
    PutKeepsOthers(t, "prediction", LabelCells(m, classes));
    PutKeepsOthers(out1, "confidence", ConfidenceCells(m));
    PutKeepsOthers(out2, "dropout_risk_score", ProbCells(m, d));
    ProbColumnsShape(out3, m, classes, 0);
    var out := FormatBatch(t, m, classes).value;
    assert forall j :: |t.columns| <= j < |out3.columns| ==> out3.columns[j].name in BatchLabels(classes);
    forall c | c in classes ensures Has(out, ProbColumnName(c)) {
      var j :| 0 <= j < |classes| && classes[j] == c;
      ProbColumnsValues(out3, m, classes, 0, j);
    }
  }
}

=== FILE: rounding.dfy ===
/** The two rounding rules of the system, stated on exact reals:
    Python's `round(x, 1)` / `np.round(x, 1)` (half to even) on the backend,
    and JavaScript's `Math.round` (half towards +infinity) on the dashboard. */
module Rounding {

  /** Nearest integer, ties to the even neighbour. */
  function RoundHalfEven(x: real): (n: int)
    ensures x - 1.0 / 2.0 <= n as real <= x + 1.0 / 2.0
    ensures (n as real - x == 1.0 / 2.0 || x - n as real == 1.0 / 2.0) ==> n % 2 == 0
  {
    var f := x.Floor;
    var frac := x - f as real;
    if frac < 1.0 / 2.0 then f
    else if frac > 1.0 / 2.0 then f + 1
    else if f % 2 == 0 then f
    else f + 1
  }

  /** Rounding to one decimal place, as `round(x, 1)`. */
  function Round1(x: real): (r: real)
    ensures x - 1.0 / 20.0 <= r <= x + 1.0 / 20.0
  {
    RoundHalfEven(x * 10.0) as real / 10.0
  }

  /** A value that already has one decimal place is left alone. */
  lemma Round1Exact(x: real, k: int)
    requires x == k as real / 10.0
    ensures Round1(x) == x
  {
    assert x * 10.0 == k as real;
    assert (x * 10.0).Floor == k;
  }

  /** `Math.round`: nearest integer, ties towards +infinity. */
  function JsRound(x: real): (n: int)
    ensures x - 1.0 / 2.0 < n as real <= x + 1.0 / 2.0
  {
    (x + 1.0 / 2.0).Floor
  }

  /** `Math.round` keeps a value inside an integer range it was already in. */
  lemma JsRoundBounds(x: real, lo: int, hi: int)
    requires lo as real <= x <= hi as real
    ensures lo <= JsRound(x) <= hi
  {
  }

  /** Rounding half to even never reverses the order of two values. */
  lemma RoundHalfEvenMonotone(x: real, y: real)
    requires x <= y
    ensures RoundHalfEven(x) <= RoundHalfEven(y)
  {
  }

  lemma Round1Monotone(x: real, y: real)
    requires x <= y
    ensures Round1(x) <= Round1(y)
  {
    RoundHalfEvenMonotone(x * 10.0, y * 10.0);
  }
}

=== FILE: seqs.dfy ===
/** Order-preserving filtering and counting over sequences: the `Array.filter`
    and `Array.filter(...).length` idioms the front-ends use everywhere. */
module Seqs {

  /** The elements of `s` that satisfy `p`, in their original order. */
  function Filter<T>(s: seq<T>, p: T -> bool): (r: seq<T>)
    ensures |r| <= |s|
    ensures forall x :: x in r ==> x in s && p(x)
    ensures forall i :: 0 <= i < |s| && p(s[i]) ==> s[i] in r
  {
    if |s| == 0 then []
    else (if p(s[0]) then [s[0]] else []) + Filter(s[1..], p)
  }

  /** How many elements of `s` satisfy `p`. */
  function Count<T>(s: seq<T>, p: T -> bool): nat
  {
    |Filter(s, p)|
  }

  /** Every index shifted by one: the indices of `s[1..]` seen from `s`. */
  function Shift(idx: seq<nat>): (r: seq<nat>)
    ensures |r| == |idx|
    ensures forall k :: 0 <= k < |idx| ==> r[k] == idx[k] + 1
  {
    seq(|idx|, k requires 0 <= k < |idx| => idx[k] + 1)
  }

  /** The positions of `s` whose element satisfies `p`, ascending. */
  function KeptIndices<T>(s: seq<T>, p: T -> bool): seq<nat>
  {
    if |s| == 0 then []
    else (if p(s[0]) then [0] else []) + Shift(KeptIndices(s[1..], p))
  }

  ghost predicate StrictlyIncreasing(idx: seq<nat>)
  {
    forall j, k :: 0 <= j < k < |idx| ==> idx[j] < idx[k]
  }

  /** The kept positions and the filtered elements correspond one to one. */
  lemma {:induction false} KeptIndicesMatch<T>(s: seq<T>, p: T -> bool)
    ensures |KeptIndices(s, p)| == |Filter(s, p)|
    ensures forall k :: 0 <= k < |KeptIndices(s, p)| ==>
              KeptIndices(s, p)[k] < |s| && Filter(s, p)[k] == s[KeptIndices(s, p)[k]]
  {
    if |s| > 0 {
      var tail := s[1..];
      KeptIndicesMatch(tail, p);
      var ti := KeptIndices(tail, p);
      var ft := Filter(tail, p);
      var idx := KeptIndices(s, p);
      var f := Filter(s, p);
      if p(s[0]) {
        assert idx == [0] + Shift(ti);
        assert f == [s[0]] + ft;
        forall k | 0 <= k < |idx|
          ensures idx[k] < |s| && f[k] == s[idx[k]]
        {
          if k > 0 {
            assert idx[k] == ti[k - 1] + 1;
            assert f[k] == ft[k - 1] == tail[ti[k - 1]];
          }
        }
      } else {
        assert idx == [] + Shift(ti);
        assert f == [] + ft;
        forall k | 0 <= k < |idx|
          ensures idx[k] < |s| && f[k] == s[idx[k]]
        {
          assert idx[k] == ti[k] + 1;
          assert f[k] == ft[k] == tail[ti[k]];
        }
      }
    }
  }

  /** The kept positions ascend and stay inside `s`. */
  lemma {:induction false} KeptIndicesIncreasing<T>(s: seq<T>, p: T -> bool)
    ensures StrictlyIncreasing(KeptIndices(s, p))
    ensures forall k :: 0 <= k < |KeptIndices(s, p)| ==> KeptIndices(s, p)[k] < |s|
  {
    if |s| > 0 {
      KeptIndicesIncreasing(s[1..], p);
      var sh := Shift(KeptIndices(s[1..], p));
      if p(s[0]) {
        assert KeptIndices(s, p) == [0] + sh;
      } else {
        assert KeptIndices(s, p) == [] + sh;
      }
    }
  }

  /** A position is kept exactly when its element satisfies `p`. */
  lemma {:induction false} KeptIndicesComplete<T>(s: seq<T>, p: T -> bool)
    ensures forall i :: 0 <= i < |s| ==> (p(s[i]) <==> i in KeptIndices(s, p))
  {
    if |s| > 0 {
      var tail := s[1..];
      KeptIndicesComplete(tail, p);
      var ti := KeptIndices(tail, p);
      var sh := Shift(ti);
      var idx := KeptIndices(s, p);
      assert idx == (if p(s[0]) then [0] else []) + sh;
      assert forall k :: 0 <= k < |sh| ==> sh[k] > 0;
      forall i | 1 <= i < |s|
        ensures p(s[i]) <==> i in idx
      {
        assert s[i] == tail[i - 1];
        if p(s[i]) {
          var k :| 0 <= k < |ti| && ti[k] == i - 1;
          assert sh[k] == i;
        }
        if i in sh {
          var k :| 0 <= k < |sh| && sh[k] == i;
          assert ti[k] == i - 1;
        }
      }
    }
  }

  /** `Filter(s, p)` is exactly the subsequence of `s` at the ascending
      positions whose element satisfies `p`: nothing reordered, nothing
      duplicated, nothing satisfying `p` left behind. */
  lemma FilterSelectsInOrder<T>(s: seq<T>, p: T -> bool)
    ensures |KeptIndices(s, p)| == |Filter(s, p)|
    ensures StrictlyIncreasing(KeptIndices(s, p))
    ensures forall k :: 0 <= k < |KeptIndices(s, p)| ==>
              KeptIndices(s, p)[k] < |s| && Filter(s, p)[k] == s[KeptIndices(s, p)[k]]
    ensures forall i :: 0 <= i < |s| ==> (p(s[i]) <==> i in KeptIndices(s, p))
  {
    KeptIndicesMatch(s, p);
    KeptIndicesIncreasing(s, p);
    KeptIndicesComplete(s, p);
  }

  /** A predicate every element satisfies filters nothing out. */
  lemma {:induction false} FilterAll<T>(s: seq<T>, p: T -> bool)
    requires forall x :: x in s ==> p(x)
    ensures Filter(s, p) == s
  {
    if |s| > 0 {
      assert forall x :: x in s[1..] ==> x in s;
      FilterAll(s[1..], p);
      assert s == [s[0]] + s[1..];
    }
  }

  /** `Count(s, p)` reaches `|s|` exactly when every element satisfies `p`. */
  lemma {:induction false} CountAllIff<T>(s: seq<T>, p: T -> bool)
    ensures Count(s, p) == |s| <==> forall x :: x in s ==> p(x)
  {
    if |s| > 0 {
      CountAllIff(s[1..], p);
      assert forall x :: x in s <==> x == s[0] || x in s[1..];
    }
  }

  /** Three predicates that put every element in exactly one class split the
      sequence: the three counts add up to its length. */
  lemma {:induction false} CountPartition3<T>(s: seq<T>, p: T -> bool, q: T -> bool, o: T -> bool)
    requires forall x :: x in s ==>
               (p(x) && !q(x) && !o(x)) || (!p(x) && q(x) && !o(x)) || (!p(x) && !q(x) && o(x))
    ensures Count(s, p) + Count(s, q) + Count(s, o) == |s|
  {
    if |s| > 0 {
      assert forall x :: x in s[1..] ==> x in s;
      CountPartition3(s[1..], p, q, o);
    }
  }

  /** Three pairwise exclusive predicates never count more than `|s|`; they
      count exactly `|s|` when every element satisfies one of them. */
  lemma {:induction false} CountDisjoint3<T>(s: seq<T>, p: T -> bool, q: T -> bool, o: T -> bool)
    requires forall x :: x in s ==> !(p(x) && q(x)) && !(p(x) && o(x)) && !(q(x) && o(x))
    ensures Count(s, p) + Count(s, q) + Count(s, o) <= |s|
    ensures Count(s, p) + Count(s, q) + Count(s, o) == |s| <==>
              forall x :: x in s ==> p(x) || q(x) || o(x)
  {
    if |s| > 0 {
      assert forall x :: x in s[1..] ==> x in s;
      CountDisjoint3(s[1..], p, q, o);
      assert forall x :: x in s <==> x == s[0] || x in s[1..];
    }
  }

  /** Two sequences that agree wherever `p` holds and on where `p` holds
      filter to the same result. */
  lemma {:induction false} FilterAgree<T>(s1: seq<T>, s2: seq<T>, p: T -> bool)
    requires |s1| == |s2|
    requires forall i :: 0 <= i < |s1| ==> p(s1[i]) == p(s2[i])
    requires forall i :: 0 <= i < |s1| && p(s1[i]) ==> s1[i] == s2[i]
    ensures Filter(s1, p) == Filter(s2, p)
  {
    if |s1| > 0 {
      FilterAgree(s1[1..], s2[1..], p);
    }
  }
}

=== FILE: service.dfy ===
/** The two prediction entry points of the backend, `predict` and
    `predict_csv`, from the loaded/not-loaded gate to the formatted answer.
    The classifier is a parameter of the model bundle: nothing is assumed of
    it beyond returning a rectangular probability matrix. */
module Service {
  import opened Wrappers
  import opened Tables
  import Seqs
  import Features
  import opened Formatter

  /** The deserialised model artifact. */
  datatype Bundle = Bundle(
    pipeline: Frame -> Matrix,
    classes: seq<string>,
    renameDict: map<string, string>)

  /** The label column that is kept in the output but never shown to the
      classifier. */
  const TargetLabel: string := "target"

  /** A JSON object: no key appears twice. */
  predicate DistinctKeys(student: seq<(string, Value)>)
  {
    forall i, j :: 0 <= i < j < |student| ==> student[i].0 != student[j].0
  }

  /** `pd.DataFrame([student])`: one row, one column per key, in key order. */
  function FromRecord(student: seq<(string, Value)>): (t: Frame)
    requires DistinctKeys(student)
    ensures t.height == 1 && |t.columns| == |student|
    ensures forall i :: 0 <= i < |student| ==> t.columns[i] == Column(student[i].0, [student[i].1])
    ensures forall i :: 0 <= i < |student| ==> Get(t, student[i].0) == Ok([student[i].1])
  {
    RawTable(seq(|student|, i requires 0 <= i < |student| => Column(student[i].0, [student[i].1])), 1)
  }

  /** `POST /predict`. */
  function Predict(bundle: Option<Bundle>, student: seq<(string, Value)>): (r: Result<Prediction, Error>)
    requires DistinctKeys(student)
    ensures bundle.None? ==> r == Err(ModelNotLoaded) && HttpStatus(r.error) == 503
    ensures r.Ok? ==> r.value.outcome in bundle.value.classes
  {
    if bundle.None? then Err(ModelNotLoaded)
    else
      var x :- Features.Engineer(FromRecord(student));
      var probs := bundle.value.pipeline(x);
      if |probs.rows| == 0 then Err(IndexOutOfRange)
      else
        FormatSingle(probs.rows[0], bundle.value.classes)
  }

  /** The table given to the classifier: every `target` column dropped. */
  function ModelInput(t: Frame): (r: Frame)
    ensures !Has(r, TargetLabel)
    ensures r.height == t.height
    ensures forall c :: c in t.columns && c.name != TargetLabel ==> c in r.columns
    ensures forall c :: c in r.columns ==> c in t.columns
  {
    if Has(t, TargetLabel) then Drop(t, TargetLabel) else t
  }

  /** The classifier sees the remaining columns in the upload's order: the
      k-th column it gets is the k-th column not labelled `target`. */
  lemma ModelInputInOrder(t: Frame)
    ensures var idx := Seqs.KeptIndices(t.columns, Unlabelled(TargetLabel));
      var r := ModelInput(t);
      && |idx| == |r.columns|
      && Seqs.StrictlyIncreasing(idx)
      && (forall k :: 0 <= k < |idx| ==> idx[k] < |t.columns| && r.columns[k] == t.columns[idx[k]])
      && (forall i :: 0 <= i < |t.columns| ==> (t.columns[i].name != TargetLabel <==> i in idx))
  {
    DropInOrder(t, TargetLabel);
    if !Has(t, TargetLabel) {
      Seqs.FilterAll(t.columns, Unlabelled(TargetLabel));
    }
  }

  /** `POST /predict_csv`. `upload` is the outcome of parsing the uploaded
      file: a table, or the parser's message. */
  function PredictCsv(bundle: Option<Bundle>, upload: Result<Frame, string>): (r: Result<Frame, Error>)
    ensures bundle.None? ==> r == Err(ModelNotLoaded) && HttpStatus(r.error) == 503
    ensures bundle.Some? && upload.Err? ==> r == Err(CsvParse(upload.error)) && HttpStatus(r.error) == 400
  {
    if bundle.None? then Err(ModelNotLoaded)
    else if upload.Err? then Err(CsvParse(upload.error))
    else
      var t := Rename(upload.value, bundle.value.renameDict);
      var e :- Features.Engineer(t);
      FormatBatch(e, bundle.value.pipeline(ModelInput(e)), bundle.value.classes)
  }

  // ---------------------------------------------------------------------
  // Properties of the batch path

  /** The tables agree everywhere except in the cells of `target` columns. */
  ghost predicate SameExceptTarget(a: Frame, b: Frame)
  {
    && a.height == b.height
    && |a.columns| == |b.columns|
    && (forall i :: 0 <= i < |a.columns| ==> a.columns[i].name == b.columns[i].name)
    && (forall i :: 0 <= i < |a.columns| && a.columns[i].name != TargetLabel ==> a.columns[i] == b.columns[i])
  }

  /** The classifier cannot see the `target` column: tables differing only
      there give it the same input, hence the same probabilities. */
  lemma ModelInputIgnoresTarget(a: Frame, b: Frame, pipeline: Frame -> Matrix)
    requires SameExceptTarget(a, b)
    ensures ModelInput(a) == ModelInput(b)
    ensures pipeline(ModelInput(a)) == pipeline(ModelInput(b))
  {
    assert Has(a, TargetLabel) == Has(b, TargetLabel) by {
      if Has(a, TargetLabel) {
        var i :| 0 <= i < |a.columns| && a.columns[i].name == TargetLabel;
        assert b.columns[i].name == TargetLabel;
      }
      if Has(b, TargetLabel) {
        var i :| 0 <= i < |b.columns| && b.columns[i].name == TargetLabel;
        assert a.columns[i].name == TargetLabel;
      }
    }
    if Has(a, TargetLabel) {
      Seqs.FilterAgree(a.columns, b.columns, Unlabelled(TargetLabel));
    } else {
      assert a.columns == b.columns;
    }
  }

  lemma TargetIsNoBatchLabel(classes: seq<string>)
    ensures TargetLabel !in BatchLabels(classes)
  {
    forall c | c in classes ensures ProbColumnName(c) != TargetLabel {
      assert ProbColumnName(c)[0] == 'p';
    }
  }

  /** A successful batch answer keeps the upload's rows and columns: the
      row count is unchanged, every column of the renamed upload keeps its
      place and label, and a column that neither engineering nor the batch
      writes (the `target` column among them) keeps its cells apart from
      infinities turned into missing values. */
  lemma PredictCsvPreservesUpload(b: Bundle, u: Frame)
    requires PredictCsv(Some(b), Ok(u)).Ok?
    ensures var t := Rename(u, b.renameDict);
      var out := PredictCsv(Some(b), Ok(u)).value;
      && out.height == u.height
      && |out.columns| >= |u.columns|
      && (forall i :: 0 <= i < |u.columns| ==> out.columns[i].name == t.columns[i].name)
      && (forall i, k ::
            (0 <= i < |u.columns| && 0 <= k < u.height &&
             t.columns[i].name !in Features.Outputs(Features.Derivations) &&
             t.columns[i].name !in BatchLabels(b.classes)) ==>
            out.columns[i].cells[k] == Features.ScrubCell(u.columns[i].cells[k]))
    ensures TargetLabel !in Features.Outputs(Features.Derivations) && TargetLabel !in BatchLabels(b.classes)
  {
    var t := Rename(u, b.renameDict);
    var e := Features.Engineer(t).value;
    Features.EngineerPreservesTable(t);
    BatchPreservesTable(e, b.pipeline(ModelInput(e)), b.classes);
    TargetIsNoBatchLabel(b.classes);
  }

  /** Each row's label, confidence and risk in the batch answer are what the
      single-record formatter gives for that row's probabilities. */
  lemma PredictCsvRowsAgree(b: Bundle, u: Frame)
    requires PredictCsv(Some(b), Ok(u)).Ok?
    ensures var t := Rename(u, b.renameDict);
      var e := Features.Engineer(t).value;
      var m := b.pipeline(ModelInput(e));
      var out := PredictCsv(Some(b), Ok(u)).value;
      && |m.rows| == u.height
      && (forall k :: 0 <= k < |m.rows| ==> FormatSingle(m.rows[k], b.classes).Ok?)
      && ColumnIs(out, "prediction",
           seq(|m.rows|, k requires 0 <= k < |m.rows| => Str(FormatSingle(m.rows[k], b.classes).value.outcome)))
  {
    var t := Rename(u, b.renameDict);
    var e := Features.Engineer(t).value;
    Features.EngineerPreservesTable(t);
    BatchAgreesWithSingle(e, b.pipeline(ModelInput(e)), b.classes);
  }

  // ---------------------------------------------------------------------
  // Worked examples

  /** The one-student table of the zero-enrolment example: no units
      enrolled, and `approved` as the number of units approved. */
  function ZeroEnrolled(approved: Value): Frame
  {
    FromRecord([("sem1_enrolled", Num(0.0)), ("sem1_approved", approved)])
  }

  /** Of the six derivations only the first semester's approval rate has
      both sources in the zero-enrolment table, and it can be computed. */
  lemma ZeroEnrolledGuards(approved: Value)
    ensures forall d :: d in Features.Derivations ==>
      (Features.Guard(ZeroEnrolled(approved), d) <==> d == Features.Derivations[0])
    ensures Features.Usable(ZeroEnrolled(approved), Features.Derivations[0])
    ensures Get(ZeroEnrolled(approved), "sem1_enrolled") == Ok([Num(0.0)])
    ensures Get(ZeroEnrolled(approved), "sem1_approved") == Ok([approved])
  {
    var t := ZeroEnrolled(approved);
    assert t.columns[0].name == "sem1_enrolled";
    assert t.columns[1].name == "sem1_approved";
  }

  /** A student with zero enrolled units gets a missing approval rate, not an
      error, not infinity and not zero, whatever the approved count holds:
      text over a zero denominator is not divided at all. */
  lemma ZeroEnrolledScenario(approved: Value)
    ensures Features.Engineer(ZeroEnrolled(approved)).Ok?
    ensures Has(Features.Engineer(ZeroEnrolled(approved)).value, "sem1_approval_rate")
    ensures var r := Features.Engineer(ZeroEnrolled(approved)).value;
      forall i :: 0 <= i < |r.columns| && r.columns[i].name == "sem1_approval_rate" ==>
        r.columns[i].cells == [Missing]
  {
    var t := ZeroEnrolled(approved);
    var d := Features.Derivations[0];
    ZeroEnrolledGuards(approved);
    Features.EngineerSucceedsIff(t);
    var r := Features.Engineer(t).value;
    Features.EngineerCreatesIff(t, d);
    forall i | 0 <= i < |r.columns| && r.columns[i].name == d.output
      ensures r.columns[i].cells == [Missing]
    {
      Features.EngineerRatioValues(t, d, i, 0);
      assert |r.columns[i].cells| == 1;
    }
  }

  /** Probabilities 0.7 / 0.2 / 0.1 over Dropout / Enrolled / Graduate. */
  lemma FormatScenario()
    ensures FormatSingle([0.7, 0.2, 0.1], ["Dropout", "Enrolled", "Graduate"]) ==
      Ok(Prediction("Dropout", 70.0, 70.0, map["Dropout" := 70.0, "Enrolled" := 20.0, "Graduate" := 10.0]))
  {
    var prob := [0.7, 0.2, 0.1];
    var classes := ["Dropout", "Enrolled", "Graduate"];
    assert ArgMax(prob) == 0;
    assert IndexOf(classes, RiskClass) == Some(0);
    Rounding.Round1Exact(70.0, 700);
    Rounding.Round1Exact(20.0, 200);
    Rounding.Round1Exact(10.0, 100);
    assert classes[..0] == [] && classes[..1][..0] == [] && classes[..2][..1] == classes[..1];
    assert PercentMap(classes[..1], prob) == map["Dropout" := 70.0];
    assert PercentMap(classes[..2], prob) == map["Dropout" := 70.0, "Enrolled" := 20.0];
    assert classes[..3] == classes;
  }

  /** A model whose classes lack "Dropout" cannot answer on either path. */
  lemma NoRiskClassFails(b: Bundle, student: seq<(string, Value)>, u: Frame)
    requires DistinctKeys(student)
    requires RiskClass !in b.classes
    ensures Predict(Some(b), student).Err?
    ensures PredictCsv(Some(b), Ok(u)).Err?
  {
    if PredictCsv(Some(b), Ok(u)).Ok? {
      var e := Features.Engineer(Rename(u, b.renameDict)).value;
      FormatBatchOkIff(e, b.pipeline(ModelInput(e)), b.classes);
    }
  }

  /** The single-record path and the batch path agree: sending a record
      with no `target` key to `/predict`, and the same record as a one-row
      upload to `/predict_csv` of a model with no renames, gives the same
      label. */
  lemma PredictAgreesWithBatch(b: Bundle, student: seq<(string, Value)>)
    requires DistinctKeys(student)
    requires forall i :: 0 <= i < |student| ==> student[i].0 != TargetLabel
    requires PredictCsv(Some(b.(renameDict := map[])), Ok(FromRecord(student))).Ok?
    ensures Predict(Some(b), student).Ok?
    ensures ColumnIs(PredictCsv(Some(b.(renameDict := map[])), Ok(FromRecord(student))).value, "prediction",
                     [Str(Predict(Some(b), student).value.outcome)])
  {
    var b0 := b.(renameDict := map[]);
    var t := FromRecord(student);
    RenameEmpty(t);
    PredictCsvPreservesUpload(b0, t);
    Features.EngineerPreservesTable(t);
    var e := Features.Engineer(t).value;
    assert !Has(e, TargetLabel) by {
      forall i | 0 <= i < |e.columns| ensures e.columns[i].name != TargetLabel {
        if i < |t.columns| {
          assert e.columns[i].name == student[i].0;
        }
      }
    }
    assert ModelInput(e) == e;
    PredictCsvRowsAgree(b0, t);
    var m := b.pipeline(e);
    assert |m.rows| == 1;
    assert seq(|m.rows|, k requires 0 <= k < |m.rows| => Str(FormatSingle(m.rows[k], b.classes).value.outcome))
        == [Str(FormatSingle(m.rows[0], b.classes).value.outcome)];
  }
}

=== FILE: survey.dfy ===
/** The student survey wizard: one question at a time, answers kept in a
    map from question id, a terminal "done" screen, per-section progress,
    the number stepper and the searchable option list. */
module Survey {
  import opened Wrappers
  import Seqs
  import Text

  /** The JavaScript values an answer can hold. */
  datatype Value = Null | Str(s: string) | Num(n: int) | Bool(b: bool)

  /** A key absent from the map is `undefined`. */
  type Answers = map<string, Value>

  datatype Kind = NumberQ(min: int, max: int) | Cards | Select | Toggle

  datatype Question = Question(id: string, section: string, kind: Kind)

  const Sections: seq<string> :=
    ["personal", "education", "enrollment", "semester1", "semester2", "family", "financial"]

  const Age: Question := Question("age", "personal", NumberQ(16, 70))

  /** The survey's questions, in the order they are asked. */
  const Questions: seq<Question> := [
    Age,
    Question("gender", "personal", Cards),
    Question("nationality", "personal", Select),
    Question("marital_status", "personal", Cards),
    Question("international", "personal", Toggle),
    Question("displaced", "personal", Toggle),
    Question("educational_special_needs", "personal", Toggle),
    Question("previous_qualification", "education", Select),
    Question("previous_qualification_grade", "education", NumberQ(0, 200)),
    Question("admission_grade", "education", NumberQ(0, 200)),
    Question("course", "enrollment", Select),
    Question("application_mode", "enrollment", Select),
    Question("application_order", "enrollment", NumberQ(0, 9)),
    Question("daytime_evening", "enrollment", Cards),
    Question("cu_1st_enrolled", "semester1", NumberQ(0, 26)),
    Question("cu_1st_evaluations", "semester1", NumberQ(0, 45)),
    Question("cu_1st_approved", "semester1", NumberQ(0, 26)),
    Question("cu_1st_credited", "semester1", NumberQ(0, 20)),
    Question("cu_1st_grade", "semester1", NumberQ(0, 20)),
    Question("cu_1st_no_evaluations", "semester1", NumberQ(0, 12)),
    Question("cu_2nd_enrolled", "semester2", NumberQ(0, 23)),
    Question("cu_2nd_evaluations", "semester2", NumberQ(0, 33)),
    Question("cu_2nd_approved", "semester2", NumberQ(0, 20)),
    Question("cu_2nd_credited", "semester2", NumberQ(0, 19)),
    Question("cu_2nd_grade", "semester2", NumberQ(0, 20)),
    Question("cu_2nd_no_evaluations", "semester2", NumberQ(0, 12)),
    Question("mother_qualification", "family", Select),
    Question("father_qualification", "family", Select),
    Question("mother_occupation", "family", Select),
    Question("father_occupation", "family", Select),
    Question("scholarship_holder", "financial", Toggle),
    Question("debtor", "financial", Toggle),
    Question("tuition_fees_up_to_date", "financial", Toggle)
  ]

  /** Question ids are distinct and every number range is non-empty. */
  ghost predicate WellFormed(qs: seq<Question>)
  {
    && (forall i, j :: 0 <= i < j < |qs| ==> qs[i].id != qs[j].id)
    && (forall i :: 0 <= i < |qs| && qs[i].kind.NumberQ? ==> qs[i].kind.min <= qs[i].kind.max)
  }

  // ---------------------------------------------------------------------
  // Answer predicates

  /** `answers[id]`, with `None` for `undefined`. */
  function Lookup(answers: Answers, id: string): Option<Value>
  {
    if id in answers then Some(answers[id]) else None
  }

  /** `hasValue`: gates the Continue button and the Enter key. */
  predicate HasValue(v: Option<Value>)
  {
    v.Some? && v.value != Null && v.value != Str("")
  }

  /** The completion test: neither `undefined` nor `""`. */
  predicate Answered(v: Option<Value>)
  {
    v.Some? && v.value != Str("")
  }

  /** The two tests differ only on `null`; a toggle answered "No" passes
      both. */
  lemma AnswerTests(v: Option<Value>)
    ensures HasValue(v) ==> Answered(v)
    ensures Answered(v) && !HasValue(v) <==> v == Some(Null)
    ensures HasValue(Some(Bool(false))) && Answered(Some(Bool(false)))
    ensures !HasValue(None) && !Answered(None) && !HasValue(Some(Str(""))) && !Answered(Some(Str("")))
  {
  }

  // ---------------------------------------------------------------------
  // Navigation

  datatype Wizard = Wizard(current: nat, answers: Answers, done: bool)

  const Start: Wizard := Wizard(0, map[], false)

  /** `goNext`: on the last question the survey is finished, otherwise the
      next question is shown. */
  function GoNext(w: Wizard, n: nat): (r: Wizard)
    requires w.current < n
    ensures r.current < n && r.answers == w.answers
    ensures w.current == n - 1 ==> r.done && r.current == w.current
    ensures w.current < n - 1 ==> r.current == w.current + 1 && r.done == w.done
  {
    if w.current == n - 1 then w.(done := true) else w.(current := w.current + 1)
  }

  /** `goPrev`: nothing happens on the first question. */
  function GoPrev(w: Wizard): (r: Wizard)
    ensures w.current == 0 ==> r == w
    ensures w.current > 0 ==> r.current == w.current - 1
    ensures r.answers == w.answers && r.done == w.done
  {
    if w.current > 0 then w.(current := w.current - 1) else w
  }

  /** `setAnswer`: stores `v` under the current question's id. */
  function SetAnswer(w: Wizard, qs: seq<Question>, v: Value): (r: Wizard)
    requires w.current < |qs|
    ensures r.current == w.current && r.done == w.done
    ensures r.answers.Keys == w.answers.Keys + {qs[w.current].id}
    ensures r.answers[qs[w.current].id] == v
    ensures forall k :: k in w.answers && k != qs[w.current].id ==> r.answers[k] == w.answers[k]
  {
    w.(answers := w.answers[qs[w.current].id := v])
  }

  // ---------------------------------------------------------------------
  // The number stepper

  /** What a number question's answer can be: never set, a number, or the
      empty string left by clearing the input. */
  datatype NumberField = Unset | Entered(n: int) | Cleared

  /** A number question only ever stores a number or `""`; `null` reads as
      unset for the `??` operator. */
  function FieldOf(v: Option<Value>): NumberField
  {
    match v
    case None => Unset
    case Some(Null) => Unset
    case Some(Num(n)) => Entered(n)
    case Some(_) => Cleared
  }

  function ValueOf(f: NumberField): Option<Value>
  {
    match f
    case Unset => None
    case Entered(n) => Some(Num(n))
    case Cleared => Some(Str(""))
  }

  predicate FieldInRange(min: int, max: int, f: NumberField)
  {
    f.Entered? ==> min <= f.n <= max
  }

  function Clamp(min: int, max: int, v: int): int
  {
    if max < (if min < v then v else min) then max else if min < v then v else min
  }

  /** The "−" button: `Math.max(min, (value ?? min) - 1)`. JavaScript turns
      `""` into 0 here, so a cleared field steps to `max(min, -1)`. */
  function Decrement(min: int, max: int, f: NumberField): (r: int)
    ensures r >= min
    ensures f.Entered? && f.n > min ==> r == f.n - 1
    ensures f.Unset? || (f.Entered? && f.n <= min) ==> r == min
    ensures f.Cleared? ==> r == (if min < -1 then -1 else min)
  {
    var base := match f case Unset => min case Entered(n) => n case Cleared => 0;
    if base - 1 < min then min else base - 1
  }

  /** The "+" button as written: `Math.min(max, (value ?? min) + 1)`. On a
      cleared field `"" + 1` is the string `"1"`, which `Math.min` reads as
      1, whatever the question's minimum. */
  function IncrementAsWritten(min: int, max: int, f: NumberField): (r: int)
    ensures r <= max
    ensures f.Unset? ==> r == (if max < min + 1 then max else min + 1)
    ensures f.Entered? ==> r == (if max < f.n + 1 then max else f.n + 1)
    ensures f.Cleared? ==> r == (if max < 1 then max else 1)
  {
    var base := match f case Unset => min case Entered(n) => n case Cleared => 0;
    if max < base + 1 then max else base + 1
  }

  /** Clearing the age field and pressing "+" stores 1, below the minimum
      age of 16 that the stepper otherwise keeps. */
  lemma IncrementAfterClearing()
    ensures IncrementAsWritten(Age.kind.min, Age.kind.max, Cleared) == 1
    ensures IncrementAsWritten(Age.kind.min, Age.kind.max, Cleared) < Age.kind.min
    ensures FieldInRange(Age.kind.min, Age.kind.max, Cleared)
  {
  }

  /** The "+" button with a cleared field read as unset. */
  function Increment(min: int, max: int, f: NumberField): (r: int)
    ensures r <= max
    ensures f.Entered? && f.n < max ==> r == f.n + 1
    ensures f.Entered? && f.n >= max ==> r == max
    ensures !f.Entered? ==> r == (if max < min + 1 then max else min + 1)
    ensures f.Cleared? ==> r == IncrementAsWritten(min, max, Unset)
    ensures !f.Cleared? ==> r == IncrementAsWritten(min, max, f)
  {
    var base := match f case Unset => min case Entered(n) => n case Cleared => min;
    if max < base + 1 then max else base + 1
  }

  /** The input's `onChange`: a parsed integer is clamped into the range,
      anything unparsable clears the field. The parse itself is `parsed`. */
  function Typed(min: int, max: int, parsed: Option<int>): (r: NumberField)
    ensures parsed.None? <==> r == Cleared
    ensures parsed.Some? ==> r.Entered? && r.n <= max
    ensures parsed.Some? && min <= max ==> FieldInRange(min, max, r)
    ensures parsed.Some? && min <= parsed.value <= max ==> r == Entered(parsed.value)
    ensures parsed.Some? && parsed.value >= max ==> r == Entered(max)
    ensures parsed.Some? && parsed.value < min <= max ==> r == Entered(min)
  {
    if parsed.None? then Cleared else Entered(Clamp(min, max, parsed.value))
  }

  /** Which "+" button the wizard runs: the one the page has, or the
      corrected one. */
  datatype Stepper = AsWritten | Corrected

  function Raise(s: Stepper, min: int, max: int, f: NumberField): int
  {
    match s
    case AsWritten => IncrementAsWritten(min, max, f)
    case Corrected => Increment(min, max, f)
  }

  /** The smallest number the stepper `s` can store on a question whose
      minimum is `min`: the page's "+" button can store 1 below it. */
  function Lowest(s: Stepper, min: int): int
  {
    if s.AsWritten? && 1 < min then 1 else min
  }

  /** Starting from a field within the stepper's bounds, every stepper
      action leaves a field within them. */
  lemma StepperKeepsRange(s: Stepper, min: int, max: int, f: NumberField, parsed: Option<int>)
    requires min <= max && -1 <= max
    requires f.Entered? ==> Lowest(s, min) <= f.n <= max
    ensures Lowest(s, min) <= Raise(s, min, max, f) <= max
    ensures Lowest(s, min) <= Decrement(min, max, f) <= max
    ensures FieldInRange(min, max, Typed(min, max, parsed))
  {
  }

  // ---------------------------------------------------------------------
  // Events

  /** What the question card lets the user do. Enter behaves as Continue
      and the left arrow as Back. */
  datatype Event = Continue | Back | Answer(v: Value) | Plus | Minus | Type(parsed: Option<int>)

  /** One event on the wizard. After submission the success screen is shown
      and no question card is left to receive events. A plain answer comes
      from a card, toggle or option list; the stepper events exist only on a
      number question. Continue moves on only from an answered question. */
  function Step(s: Stepper, qs: seq<Question>, w: Wizard, e: Event): (r: Wizard)
    requires w.current < |qs|
    ensures r.current < |qs|
    ensures w.done ==> r == w
    ensures !w.done && e == Continue ==>
              && r.answers == w.answers
              && (r != w <==> HasValue(Lookup(w.answers, qs[w.current].id)))
    ensures !w.done && e == Continue && HasValue(Lookup(w.answers, qs[w.current].id)) ==>
              if w.current + 1 < |qs| then r.current == w.current + 1 && !r.done
              else r.current == w.current && r.done
    ensures !w.done && e == Back ==> r.answers == w.answers && r.current == (if w.current == 0 then 0 else w.current - 1)
    ensures !w.done && e != Continue && e != Back ==>
              && r.current == w.current
              && !r.done
              && r.answers.Keys <= w.answers.Keys + {qs[w.current].id}
              && forall k :: k in w.answers && k != qs[w.current].id ==> k in r.answers && r.answers[k] == w.answers[k]
    ensures !w.done && e.Answer? && !qs[w.current].kind.NumberQ? ==> r.answers == w.answers[qs[w.current].id := e.v]
    ensures !w.done && e.Answer? && qs[w.current].kind.NumberQ? ==> r == w
    ensures !w.done && (e.Plus? || e.Minus? || e.Type?) && qs[w.current].kind.NumberQ? ==>
              qs[w.current].id in r.answers && r.answers[qs[w.current].id] != Null
    ensures !w.done && (e.Plus? || e.Minus? || e.Type?) && !qs[w.current].kind.NumberQ? ==> r == w
  {
    if w.done then w
    else
      var q := qs[w.current];
      var v := Lookup(w.answers, q.id);
      match e
      case Continue => if HasValue(v) then GoNext(w, |qs|) else w
      case Back => GoPrev(w)
      case Answer(x) => if q.kind.NumberQ? then w else SetAnswer(w, qs, x)
      case Plus =>
        if q.kind.NumberQ? then SetAnswer(w, qs, Num(Raise(s, q.kind.min, q.kind.max, FieldOf(v)))) else w
      case Minus =>
        if q.kind.NumberQ? then SetAnswer(w, qs, Num(Decrement(q.kind.min, q.kind.max, FieldOf(v)))) else w
      case Type(p) =>
        if q.kind.NumberQ? then SetAnswer(w, qs, ValueOf(Typed(q.kind.min, q.kind.max, p)).value) else w
  }

  /** The events applied one after another. */
  function Run(s: Stepper, qs: seq<Question>, w: Wizard, es: seq<Event>): (r: Wizard)
    requires w.current < |qs|
    ensures r.current < |qs|
    ensures w.done ==> r == w
    decreases |es|
  {
    if |es| == 0 then w else Run(s, qs, Step(s, qs, w, es[0]), es[1..])
  }

  /** Every stored number answer is `""` or lies between the stepper's
      lowest value and its question's maximum. With the corrected stepper
      that is the question's declared range. */
  ghost predicate NumbersWithin(s: Stepper, qs: seq<Question>, answers: Answers)
  {
    forall i :: 0 <= i < |qs| && qs[i].kind.NumberQ? && qs[i].id in answers ==>
      (answers[qs[i].id] == Str("") ||
       (answers[qs[i].id].Num? && Lowest(s, qs[i].kind.min) <= answers[qs[i].id].n <= qs[i].kind.max))
  }

  /** Each event keeps every number answer within the stepper's bounds. */
  lemma StepKeepsNumbersWithin(s: Stepper, qs: seq<Question>, w: Wizard, e: Event)
    requires WellFormed(qs) && w.current < |qs|
    requires forall i :: 0 <= i < |qs| && qs[i].kind.NumberQ? ==> -1 <= qs[i].kind.max
    requires NumbersWithin(s, qs, w.answers)
    ensures NumbersWithin(s, qs, Step(s, qs, w, e).answers)
  {
    if !w.done {
      var c := w.current;
      var q := qs[c];
      if q.kind.NumberQ? {
        var f := FieldOf(Lookup(w.answers, q.id));
        StepperKeepsRange(s, q.kind.min, q.kind.max, f, if e.Type? then e.parsed else None);
      }
      var r := Step(s, qs, w, e);
      forall i | 0 <= i < |qs| && qs[i].kind.NumberQ? && qs[i].id in r.answers
        ensures r.answers[qs[i].id] == Str("") ||
                (r.answers[qs[i].id].Num? && Lowest(s, qs[i].kind.min) <= r.answers[qs[i].id].n <= qs[i].kind.max)
      {
        if i != c {
          assert qs[i].id != q.id;
        }
      }
    }
  }

  /** Any sequence of events keeps every number answer within the
      stepper's bounds: the declared range for the corrected stepper, and
      for the page's stepper the range widened down to 1. */
  lemma {:induction false} RunKeepsNumbersWithin(s: Stepper, qs: seq<Question>, w: Wizard, es: seq<Event>)
    requires WellFormed(qs) && w.current < |qs|
    requires forall i :: 0 <= i < |qs| && qs[i].kind.NumberQ? ==> -1 <= qs[i].kind.max
    requires NumbersWithin(s, qs, w.answers)
    ensures NumbersWithin(s, qs, Run(s, qs, w, es).answers)
    decreases |es|
  {
    if |es| > 0 {
      StepKeepsNumbersWithin(s, qs, w, es[0]);
      RunKeepsNumbersWithin(s, qs, Step(s, qs, w, es[0]), es[1..]);
    }
  }

  /** On the real survey, clearing the age field and pressing "+" stores an
      age of 1, outside the declared range 16..70; the corrected stepper
      stores 17. */
  lemma ClearThenPlusLeavesRange()
    ensures var w := Run(AsWritten, Questions, Start, [Type(None), Plus]);
      && "age" in w.answers && w.answers["age"] == Num(1)
      && !NumbersWithin(Corrected, Questions, w.answers)
    ensures var w := Run(Corrected, Questions, Start, [Type(None), Plus]);
      "age" in w.answers && w.answers["age"] == Num(17)
  {
    QuestionsRanges();
    var w1 := Step(AsWritten, Questions, Start, Type(None));
    assert w1.answers == map["age" := Str("")] && !w1.done && w1.current == 0;
    var w2 := Step(AsWritten, Questions, w1, Plus);
    assert w2.answers == map["age" := Num(1)];
    assert Run(AsWritten, Questions, Start, [Type(None), Plus]) == w2 by {
      assert [Type(None), Plus][1..] == [Plus];
      assert [Plus][1..] == [];
    }
    var c1 := Step(Corrected, Questions, Start, Type(None));
    assert c1 == w1;
    var c2 := Step(Corrected, Questions, c1, Plus);
    assert c2.answers == map["age" := Num(17)];
    assert Run(Corrected, Questions, Start, [Type(None), Plus]) == c2 by {
      assert [Type(None), Plus][1..] == [Plus];
      assert [Plus][1..] == [];
    }
  }

  // ---------------------------------------------------------------------
  // Section progress

  function SectionQuestions(qs: seq<Question>, section: string): seq<Question>
  {
    Seqs.Filter(qs, (q: Question) => q.section == section)
  }

  /** The success screen's per-section "n/m answered". */
  function DoneCount(qs: seq<Question>, answers: Answers, section: string): nat
  {
    Seqs.Count(SectionQuestions(qs, section), (q: Question) => Answered(Lookup(answers, q.id)))
  }

  /** Every question of the section is answered. */
  predicate SectionComplete(qs: seq<Question>, answers: Answers, section: string)
  {
    forall q :: q in SectionQuestions(qs, section) ==> Answered(Lookup(answers, q.id))
  }

  /** `completedSections`. */
  function CompletedSections(sections: seq<string>, qs: seq<Question>, answers: Answers): (r: seq<string>)
    ensures forall s :: s in r <==> s in sections && SectionComplete(qs, answers, s)
  {
    Seqs.Filter(sections, s => SectionComplete(qs, answers, s))
  }

  /** The done count never exceeds the section's size and reaches it exactly
      when the section is complete. */
  lemma DoneCountBounds(qs: seq<Question>, answers: Answers, section: string)
    ensures DoneCount(qs, answers, section) <= |SectionQuestions(qs, section)|
    ensures DoneCount(qs, answers, section) == |SectionQuestions(qs, section)| <==>
              SectionComplete(qs, answers, section)
  {
    Seqs.CountAllIff(SectionQuestions(qs, section), (q: Question) => Answered(Lookup(answers, q.id)));
  }

  /** Answering a question with anything but `""` never undoes a completed
      section. */
  lemma SetAnswerKeepsCompletion(qs: seq<Question>, w: Wizard, v: Value, section: string)
    requires w.current < |qs| && v != Str("")
    requires SectionComplete(qs, w.answers, section)
    ensures SectionComplete(qs, SetAnswer(w, qs, v).answers, section)
  {
    var r := SetAnswer(w, qs, v);
    forall q | q in SectionQuestions(qs, section) ensures Answered(Lookup(r.answers, q.id)) {
      assert Answered(Lookup(w.answers, q.id));
    }
  }

  // ---------------------------------------------------------------------
  // Option search

  /** The select question's list: options whose lower-cased text contains
      the lower-cased search. */
  function FilterOptions(options: seq<string>, search: string): (r: seq<string>)
    ensures forall o :: o in r <==> o in options && Text.ContainsIgnoreCase(o, search)
  {
    Seqs.Filter(options, o => Text.ContainsIgnoreCase(o, search))
  }

  /** The matching options appear in their original order, and an empty
      search lists every option. */
  lemma FilterOptionsOrder(options: seq<string>, search: string)
    ensures var r := FilterOptions(options, search);
      var idx := Seqs.KeptIndices(options, o => Text.ContainsIgnoreCase(o, search));
      && |idx| == |r|
      && Seqs.StrictlyIncreasing(idx)
      && (forall k :: 0 <= k < |idx| ==> idx[k] < |options| && r[k] == options[idx[k]])
    ensures FilterOptions(options, "") == options
  {
    Seqs.FilterSelectsInOrder(options, o => Text.ContainsIgnoreCase(o, search));
    forall o | o in options ensures Text.ContainsIgnoreCase(o, "") {
      Text.EmptyTermMatches(o);
    }
    Seqs.FilterAll(options, o => Text.ContainsIgnoreCase(o, ""));
  }

  /** The shipped survey asks 33 questions, opens with the age question
      and gives every number question a range with `0 <= min <= max`. */
  lemma QuestionsRanges()
    ensures |Questions| == 33 && Questions[0] == Age
    ensures forall i :: 0 <= i < |Questions| && Questions[i].kind.NumberQ? ==>
              0 <= Questions[i].kind.min <= Questions[i].kind.max
  {
  }
}

=== FILE: tables.dfy ===
/** The backend's tabular data: a pandas DataFrame reduced to what the
    prediction service relies on, namely named columns in order, one cell per
    row in every column, and column labels that may repeat. */
module Tables {
  import opened Wrappers
  import Seqs

  /** One cell. `Missing` is pandas' NaN / None; `Inf` is +inf or -inf. */
  datatype Value = Missing | Num(x: real) | Inf(negative: bool) | Str(s: string)

  datatype Column = Column(name: string, cells: seq<Value>)

  datatype RawTable = RawTable(columns: seq<Column>, height: nat)

  /** Every column holds exactly one cell per row. */
  ghost predicate Rectangular(t: RawTable)
  {
    forall i :: 0 <= i < |t.columns| ==> |t.columns[i].cells| == t.height
  }

  /** A DataFrame: rectangular by construction. */
  type Frame = t: RawTable | Rectangular(t) witness RawTable([], 0)

  /** Everything the backend can fail with, each tagged with the outcome the
      web layer gives it. */
  datatype Error =
    | ModelNotLoaded            // HTTP 503
    | CsvParse(message: string) // HTTP 400
    | AmbiguousColumn(name: string)
    | MissingColumn(name: string)
    | NonNumeric(name: string)
    | LengthMismatch
    | EmptyArgmax
    | IndexOutOfRange
    | ClassNotFound(className: string)

  /** The HTTP status the service answers with; anything uncaught is a 500. */
  function HttpStatus(e: Error): (s: int)
    ensures s == 503 <==> e.ModelNotLoaded?
    ensures s == 400 <==> e.CsvParse?
    ensures s == 503 || s == 400 || s == 500
  {
    match e
    case ModelNotLoaded => 503
    case CsvParse(_) => 400
    case _ => 500
  }

  predicate Has(t: RawTable, n: string)
  {
    exists i :: 0 <= i < |t.columns| && t.columns[i].name == n
  }

  /** Column `i` is the only one labelled `n`. */
  ghost predicate UniqueAt(t: RawTable, n: string, i: int)
  {
    && 0 <= i < |t.columns|
    && t.columns[i].name == n
    && forall j :: 0 <= j < |t.columns| && j != i ==> t.columns[j].name != n
  }

  /** Position of the first column labelled `n`, if any. */
  function FirstNamed(cols: seq<Column>, n: string): (r: Option<nat>)
    ensures r.Some? ==> r.value < |cols| && cols[r.value].name == n
    ensures r.Some? ==> forall j :: 0 <= j < r.value ==> cols[j].name != n
    ensures r.None? ==> forall j :: 0 <= j < |cols| ==> cols[j].name != n
  {
    if |cols| == 0 then None
    else if cols[0].name == n then Some(0)
    else match FirstNamed(cols[1..], n)
      case None => None
      case Some(k) => Some(k + 1)
  }

  /** `df[n]` used as a single Series: succeeds exactly when one column has
      that label. A missing label is pandas' KeyError; a repeated label gives a
      multi-column frame that cannot be stored back into one column. */
  function Get(t: Frame, n: string): (r: Result<seq<Value>, Error>)
    ensures r.Ok? <==> exists i :: UniqueAt(t, n, i)
    ensures forall i :: UniqueAt(t, n, i) ==> r == Ok(t.columns[i].cells)
    ensures r.Ok? ==> |r.value| == t.height
    ensures !Has(t, n) ==> r == Err(MissingColumn(n))
    ensures Has(t, n) && r.Err? ==> r == Err(AmbiguousColumn(n))
  {
    match FirstNamed(t.columns, n)
    case None => Err(MissingColumn(n))
    case Some(i) =>
      if exists j :: i < j < |t.columns| && t.columns[j].name == n then Err(AmbiguousColumn(n))
      else
        assert UniqueAt(t, n, i);
        Ok(t.columns[i].cells)
  }

  /** `df[n] = cells`: overwrites every column labelled `n` in place, or
      appends a new last column when there is none. A value of the wrong
      length is rejected, as pandas rejects it. */
  function Put(t: Frame, n: string, cells: seq<Value>): (r: Result<Frame, Error>)
    ensures r.Ok? <==> |cells| == t.height
    ensures r.Ok? ==> r.value.height == t.height && Has(r.value, n)
  {
    if |cells| != t.height then Err(LengthMismatch)
    else if Has(t, n) then
      var r := RawTable(seq(|t.columns|, i requires 0 <= i < |t.columns| =>
                          if t.columns[i].name == n then Column(n, cells) else t.columns[i]),
                        t.height);
      assert r.columns[FirstNamed(t.columns, n).value].name == n;
      Ok(r)
    else
      var r := RawTable(t.columns + [Column(n, cells)], t.height);
      assert r.columns[|t.columns|].name == n;
      Ok(r)
  }

  /** Storing a column and reading it back gives the stored cells, provided
      the label was not already repeated. */
  lemma PutThenGet(t: Frame, n: string, cells: seq<Value>)
    requires |cells| == t.height
    requires !exists i, j :: 0 <= i < j < |t.columns| && t.columns[i].name == n && t.columns[j].name == n
    ensures Put(t, n, cells).Ok?
    ensures Get(Put(t, n, cells).value, n) == Ok(cells)
  {
    var r := Put(t, n, cells).value;
    PutKeepsOthers(t, n, cells);
    if Has(t, n) {
      var i :| 0 <= i < |t.columns| && t.columns[i].name == n;
      assert UniqueAt(r, n, i);
    } else {
      assert UniqueAt(r, n, |t.columns|);
    }
  }

  /** Storing a column changes neither the presence nor the contents of any
      other label. */
  lemma PutLeavesOtherLabels(t: Frame, n: string, cells: seq<Value>, m: string)
    requires |cells| == t.height
    requires m != n
    ensures Has(Put(t, n, cells).value, m) == Has(t, m)
    ensures Get(Put(t, n, cells).value, m) == Get(t, m)
  {
    var r := Put(t, n, cells).value;
    PutKeepsOthers(t, n, cells);
    assert forall i :: 0 <= i < |r.columns| && r.columns[i].name == m ==> i < |t.columns|;
    assert forall i :: UniqueAt(r, m, i) <==> UniqueAt(t, m, i);
    assert Has(r, m) <==> Has(t, m);
  }

  /** Putting a column keeps every column with another label where it was. */
  lemma PutKeepsOthers(t: Frame, n: string, cells: seq<Value>)
    requires |cells| == t.height
    ensures |Put(t, n, cells).value.columns| == |t.columns| + (if Has(t, n) then 0 else 1)
    ensures forall i :: 0 <= i < |t.columns| ==>
              Put(t, n, cells).value.columns[i].name == t.columns[i].name &&
              (t.columns[i].name != n ==> Put(t, n, cells).value.columns[i] == t.columns[i])
    ensures forall i :: 0 <= i < |Put(t, n, cells).value.columns| ==>
              (Put(t, n, cells).value.columns[i].name == n ==> Put(t, n, cells).value.columns[i].cells == cells)
  {
  }

  /** `df.drop(columns=[n])`: every column labelled `n` goes, the others stay
      in order. */
  function Drop(t: Frame, n: string): (r: Frame)
    ensures r.height == t.height
    ensures !Has(r, n)
    ensures forall i :: 0 <= i < |t.columns| && t.columns[i].name != n ==> t.columns[i] in r.columns
    ensures forall c :: c in r.columns ==> c in t.columns
  {
    var kept := Seqs.Filter(t.columns, Unlabelled(n));
    assert forall i :: 0 <= i < |kept| ==> kept[i] in t.columns;
    RawTable(kept, t.height)
  }

  /** The columns `Drop(t, n)` keeps. */
  function Unlabelled(n: string): Column -> bool
  {
    (c: Column) => c.name != n
  }

  /** `Drop` keeps the surviving columns in their original order: the k-th
      kept column is the column at the k-th position not labelled `n`. */
  lemma DropInOrder(t: Frame, n: string)
    ensures var idx := Seqs.KeptIndices(t.columns, Unlabelled(n));
      && |idx| == |Drop(t, n).columns|
      && Seqs.StrictlyIncreasing(idx)
      && (forall k :: 0 <= k < |idx| ==> idx[k] < |t.columns| && Drop(t, n).columns[k] == t.columns[idx[k]])
      && (forall i :: 0 <= i < |t.columns| ==> (t.columns[i].name != n <==> i in idx))
  {
    Seqs.FilterSelectsInOrder(t.columns, Unlabelled(n));
  }

  function RenameLabel(n: string, m: map<string, string>): string
  {
    if n in m then m[n] else n
  }

  /** `df.rename(columns=m)`: labels found in `m` are replaced, every other
      label, every cell and the row count pass through. */
  function Rename(t: Frame, m: map<string, string>): (r: Frame)
    ensures r.height == t.height && |r.columns| == |t.columns|
    ensures forall i :: 0 <= i < |t.columns| ==> r.columns[i].cells == t.columns[i].cells
    ensures forall i :: 0 <= i < |t.columns| && t.columns[i].name in m ==>
              r.columns[i].name == m[t.columns[i].name]
    ensures forall i :: 0 <= i < |t.columns| && t.columns[i].name !in m ==>
              r.columns[i].name == t.columns[i].name
  {
    RawTable(seq(|t.columns|, i requires 0 <= i < |t.columns| =>
               Column(RenameLabel(t.columns[i].name, m), t.columns[i].cells)),
             t.height)
  }

  /** Renaming with a mapping and then with its inverse restores the table,
      as long as the inverse touches no label the first mapping left alone. */
  lemma RenameRoundTrip(t: Frame, m: map<string, string>, inv: map<string, string>)
    requires forall k :: k in m ==> m[k] in inv && inv[m[k]] == k
    requires forall i :: 0 <= i < |t.columns| && t.columns[i].name !in m ==> t.columns[i].name !in inv
    ensures Rename(Rename(t, m), inv) == t
  {
    var r := Rename(Rename(t, m), inv);
    assert forall i :: 0 <= i < |t.columns| ==> r.columns[i] == t.columns[i];
  }

  /** The empty mapping renames nothing. */
  lemma RenameEmpty(t: Frame)
    ensures Rename(t, map[]) == t
  {
    assert forall i :: 0 <= i < |t.columns| ==> Rename(t, map[]).columns[i] == t.columns[i];
  }

  /** Column `n` is present and every column labelled `n` holds `cells`. */
  ghost predicate ColumnIs(t: RawTable, n: string, cells: seq<Value>)
  {
    && Has(t, n)
    && forall j :: 0 <= j < |t.columns| && t.columns[j].name == n ==> t.columns[j].cells == cells
  }

  /** After `df[n] = cells`, reading label `n` anywhere gives `cells`, and
      what other labels held is unchanged. */
  lemma PutColumnIs(t: Frame, n: string, cells: seq<Value>, n2: string, cells2: seq<Value>)
    requires |cells| == t.height
    ensures ColumnIs(Put(t, n, cells).value, n, cells)
    ensures n2 != n && ColumnIs(t, n2, cells2) ==> ColumnIs(Put(t, n, cells).value, n2, cells2)
  {
    PutKeepsOthers(t, n, cells);
    if n2 != n && ColumnIs(t, n2, cells2) {
      PutLeavesOtherLabels(t, n, cells, n2);
    }
  }
}

=== FILE: text.dfy ===
/** The string operations the search boxes use: `toLowerCase` and `includes`. */
module Text {

  /** `toLowerCase` on one character, restricted to the ASCII letters. */
  function LowerChar(c: char): char
  {
    if 'A' <= c <= 'Z' then (c as int + 32) as char else c
  }

  function Lower(s: string): string
  {
    seq(|s|, i requires 0 <= i < |s| => LowerChar(s[i]))
  }

  /** `t` occurs in `s` starting at position `i`. */
  predicate OccursAt(s: string, t: string, i: nat)
  {
    i + |t| <= |s| && s[i..i + |t|] == t
  }

  /** `s.includes(t)`: `t` occurs in `s` as a contiguous block. */
  predicate Contains(s: string, t: string)
  {
    exists i: nat :: i <= |s| && OccursAt(s, t, i)
  }

  /** `s.toLowerCase().includes(t.toLowerCase())`. */
  predicate ContainsIgnoreCase(s: string, t: string)
  {
    Contains(Lower(s), Lower(t))
  }

  /** The empty search term occurs in every string. */
  lemma EmptyTermMatches(s: string)
    ensures ContainsIgnoreCase(s, "")
  {
    assert OccursAt(Lower(s), Lower(""), 0);
  }

  /** Lower-casing twice is lower-casing once. */
  lemma LowerIdempotent(s: string)
    ensures Lower(Lower(s)) == Lower(s)
  {
    assert forall i :: 0 <= i < |s| ==> LowerChar(LowerChar(s[i])) == LowerChar(s[i]);
  }

  /** Lower-casing commutes with taking a slice. */
  lemma LowerSlice(s: string, i: nat, j: nat)
    requires i <= j <= |s|
    ensures Lower(s)[i..j] == Lower(s[i..j])
  {
  }

  /** A case-insensitive search finds every exact occurrence, and does not
      care whether the searched text was lower-cased already. */
  lemma ContainsIgnoreCaseProperties(s: string, t: string)
    ensures Contains(s, t) ==> ContainsIgnoreCase(s, t)
    ensures ContainsIgnoreCase(Lower(s), t) == ContainsIgnoreCase(s, t)
  {
    LowerIdempotent(s);
    if Contains(s, t) {
      var i: nat :| i <= |s| && OccursAt(s, t, i);
      LowerSlice(s, i, i + |t|);
      assert OccursAt(Lower(s), Lower(t), i);
    }
  }
}

=== FILE: wrappers.dfy ===
/** Failure-compatible result types shared by every module of the model. */
module Wrappers {

  /** A value that may be absent: JavaScript `undefined`, a Python `None`. */
  datatype Option<+T> = None | Some(value: T) {

    /** The wrapped value, or `default` when absent (JavaScript `??`). */
    function GetOr(default: T): T
    {
      match this
      case Some(v) => v
      case None => default
    }
  }

  /** Either a computed value or the error the source would raise. */
  datatype Result<+T, +E> = Ok(value: T) | Err(error: E) {

    predicate IsFailure()
    {
      Err?
    }

    function PropagateFailure<U>(): Result<U, E>
      requires Err?
    {
      Err(error)
    }

    function Extract(): T
      requires Ok?
    {
      value
    }
  }
}
